=== FILE: README.md ===
# Btcsleuth anomaly detection — a Dafny model

Btcsleuth is a Flask application that scores Bitcoin transactions for
anomalies. An ensemble of four classifiers (SVM, random forest, AdaBoost,
XGBoost) votes on every row of an uploaded CSV file, of the live market
feed, or of a simulated testnet run. The application stores each analysis
per user, charts the per-day activity, builds PDF reports, and guards its
accounts with e-mailed six-digit codes.

This project models the core of that system in Dafny and proves properties
of the model:

- `Features`: feature shaping (`prepare_features`). A frame is its row count
  and its ordered column descriptors. A feature column is named by the
  source it is computed from.
- `Training`: lazy training (`train_dummy_models` and the svm guard of every
  analyze method), as a registry of which estimators are fitted.
- `Ensemble`: the vote. Per-model 0/1 predictions are opaque inputs, and a
  raising model contributes zeros. The rule "mean > 0.3" is shown to be
  "at least two of four votes".
- `Adapters`: the three entry points `analyze_csv`, `analyze_live_data` and
  `analyze_simulated_data`. Every random draw is a parameter with its range.
- `Helpers`: the pure parts of `utils/helpers.py`. These are the extension
  check, the anomaly percentage, the severity colour, the report's severity
  buckets and anomaly table, and the fallback to the simple report.
- `MainRoutes`: the pure parts of `main/routes.py`. These are the upload
  pipeline, the dashboard chart, the activity endpoint, the anomaly e-mail
  guard and the profile update.
- `Testnet`: the testnet simulation, its demo list, the run history and its
  deletion (`binance_routes/routes.py`).
- `Auth`: registration, login, verification and password reset as
  transitions on (user table, session) (`auth/routes.py`).
- `LiveUi`: the live page's pagination, its start/stop toggle and the chart
  split (`static/js/live-analysis.js`).
- `Upload`: the upload page's client checks (`static/js/upload.js`).
- `Common` and `Records` hold the shared vocabulary. `Records` shapes its
  records after `models.py`.

Timestamps are integer seconds, and a date is `t / 86400`. Accuracies and
other rounded draws are integers in hundredths, because the code applies
`round(uniform(a, b), 2)`.

## Model

| member | source | states |
|---|---|---|
| `Features.PrepareFeatures` | ml/analyzer.py:61-107 | Always six columns of `len(df)` rows. With usable price and qty, the columns are price, qty and their rolling means and stds, in that order. Price and qty are never taken as generic numeric columns. Random columns appear exactly when extraction raised or nothing was collected, and then fill the matrix. Otherwise the first six collected columns are used, zero-padded. |
| `Features.OtherNumericComplete` | ml/analyzer.py:79-82 | Every numeric column other than price and qty is collected by the generic loop. |
| `Features.OtherNumeric` | ml/analyzer.py:79-82 | The generic loop yields only numeric columns of the frame that are neither price nor qty. |
| `Features.GenericColumnsWithoutPriceQty` | ml/analyzer.py:68-98 | Without a price/qty pair, every other numeric column reaches the matrix when there are at most six. |
| `Features.LonePriceIsDiscarded` | ml/analyzer.py:68-82 | A frame with price but no qty uses price neither as a derived signal nor as a generic column. |
| `Training.TrainDummyModels` | ml/analyzer.py:109-124 | Fitting the scaler on zero rows, or on a matrix holding an infinite value (NaN passes the scaler's check, infinity does not), raises before any classifier is touched. Otherwise the scaler is fitted, no fitted slot is lost, and each slot is fitted afterwards iff it was before or its own fit succeeded, so a failed fit keeps the prior state. |
| `Training.PrepareModels` | ml/analyzer.py:136-140 | Zero rows, or an infinite feature value, always fail. An untrained registry is trained on any non-empty, finite input, and the result is exactly what `train_dummy_models` leaves. A trained registry is reused unchanged and succeeds iff its scaler is fitted, rows > 0 and every value is finite. An unfitted scaler is reported before an infinite value. |
| `Training.TrainedNeverRetrains` | ml/analyzer.py:194-198 | Once svm is fitted, the outcome no longer depends on how fits would go. |
| `Training.SvmFailureRetrainsNextCall` | ml/analyzer.py:261-262 | A swallowed svm fit failure leaves the guard armed, so the next call trains again. |
| `Training.TrainingIsOneWay` | ml/analyzer.py:136-137 | After a training whose svm fit succeeded, every later non-empty, finite call reuses the same registry. |
| `Ensemble.SlotVotes` | ml/analyzer.py:153-156 | A slot contributes as many votes as there are rows. A fitted model that predicts votes its predictions; a raising or unfitted model votes 0 on every row. |
| `Ensemble.RowLabel` | ml/analyzer.py:159-160 | A row is labelled 1 iff at least two of the four models vote 1. |
| `Ensemble.Decide` | ml/analyzer.py:211-212 | One label per row. Each label is 1 iff at least two of that row's four votes are 1. |
| `Ensemble.TwoVotesDecide` | ml/analyzer.py:278-279 | A single model never flags a row and any two agreeing models always do. This matches "mean > 0.3" exactly. |
| `Ensemble.AllRaisingFlagsNothing` | ml/analyzer.py:202-212 | When every model raises, no row is flagged. |
| `Ensemble.AnomalyIndices` | ml/analyzer.py:176 | The indices are the positions of the 1-labels, strictly increasing, and there are as many as the 1-labels. |
| `Adapters.Assemble` | ml/analyzer.py:163-176 | The result is consistent. The count is the number of 1-labels and equals the length of the index list. The count is at most the total, and the total is the row count. |
| `Adapters.BatchAccuracyIsConstant` | ml/analyzer.py:165 | The batch accuracy is mean(0.85, 0.87, 0.82, 0.89) = 0.8575. |
| `Adapters.AnalyzeCsv` | ml/analyzer.py:126-185 | Fails on zero rows, on an infinite cell value (the scaler's ValueError is re-raised) or when model preparation fails. Otherwise the result is consistent, its accuracy is 0.8575 whatever the data, and a row is flagged iff two models vote 1. A raising `predict_proba` also zeroes its model's votes. |
| `Adapters.Inject` | ml/analyzer.py:218-219 | After injection, a position is 1 iff it was 1 before or was sampled. |
| `Adapters.InjectCount` | ml/analyzer.py:214-219 | Injecting distinct, previously normal rows raises the count by their number. |
| `Adapters.LiveBand` | ml/analyzer.py:222-230 | The accuracy band in hundredths is keyed by the final count: [93, 95] for at most 1, [91, 93] for 2-4, [87, 90] for 5-7 and [85, 88] from 8 up. |
| `Adapters.LiveBandFallsWithCount` | ml/analyzer.py:222-230 | A larger anomaly count never gets a higher band, and every band is a proper range inside [85, 95]. |
| `Adapters.ForceAnomalies` | ml/analyzer.py:213-220 | For an all-normal, non-empty batch, exactly the sampled rows become anomalous. That is min(r, n) rows, so the final count is in [1, min(9, n)]. Otherwise the labels are unchanged. A flagged row is never cleared. |
| `Adapters.AnalyzeLiveData` | ml/analyzer.py:187-246 | On success the result is consistent with at least one anomaly. The raw labels are kept when any row was flagged; otherwise exactly the min(r, n) sampled rows are flagged. The accuracy lies in the band of the final count. |
| `Adapters.AnalyzeSimulatedData` | ml/analyzer.py:248-297 | Succeeds iff the frame has a label column or at least five rows, and model preparation succeeds. Without a label column, fewer than five rows make the fallback draw raise. The true anomalies are the label-column sum, or the draw in [0, n div 5). The accuracy is in [0.84, 0.94] regardless of the predictions. |
| `Helpers.LastDot` | utils/helpers.py:25-26 | The position of the last '.' of the name, or none exactly when the name has no '.'. |
| `Helpers.LastDotIsLast` | utils/helpers.py:26 | A '.' with no '.' after it is the one `rsplit('.', 1)` splits at. |
| `Helpers.AllowedFile` | utils/helpers.py:23-26 | True iff the name has a '.' whose following text has no '.' and lower-cases to an allowed extension. |
| `Helpers.AllowedFileExamples` | utils/helpers.py:23-26 | With {"csv"} (config.py), "a.CSV" and "x.tar.csv" pass, while "csv" and "a.csv.bak" fail. |
| `Helpers.AnomalyPercentage` | utils/helpers.py:738-742 | Zero for a zero total; otherwise anomalies/total·100, which lies in [0, 100] when 0 ≤ anomalies ≤ total. |
| `Helpers.SeverityColor` | utils/helpers.py:744-752 | low maps to success, medium to warning, high and critical to danger, and any other string to secondary (each an iff). |
| `Helpers.SeverityColorCaseSensitive` | utils/helpers.py:746-752 | Differently cased severities fall through to the default class. |
| `Helpers.SeverityBuckets` | utils/helpers.py:508-520 | Every bucket is at least 1, and the four add up to max(m, low + medium + high + 1). |
| `Helpers.BucketsSumExactIffAtLeastFour` | utils/helpers.py:511-520 | The buckets add up to the anomaly count iff there are at least four anomalies. From one to three anomalies every bucket is 1. |
| `Helpers.AnomalyTable` | utils/helpers.py:555-567 | Shows the first 15 indices in order. Row i has severity i%4, confidence 85+i%15, method i%4 and risk i%3. The ellipsis and total rows are appended iff there are more than 15 anomalies. |
| `Helpers.SummaryRate` | utils/helpers.py:203 | The executive summary's anomaly rate raises exactly on a zero total. Otherwise rate·total = anomalies·100. |
| `Helpers.GenerateReport` | utils/helpers.py:689-695 | The full report results iff the total is non-zero and rendering succeeds. Otherwise the simple report is produced, and nothing when that fails too. A zero total never yields the full report (the division at line 203). |
| `Helpers.FullReportRateIsPercentage` | utils/helpers.py:203 | A full report's anomaly rate equals `calculate_anomaly_percentage` (lines 738-742). Where the report's division raises, no full report is made, and the helper answers 0 instead. |
| `Helpers.RateWarningIffAboveTenth` | utils/helpers.py:203 | On a positive total, the rate's status is a warning iff 10·anomalies > total. |
| `MainRoutes.UploadFile` | main/routes.py:79-150 | The analyzer runs iff a non-empty, allowed name has a readable header holding price and qty or close and volume. The file is kept iff analysed. An upload analysis is stored iff the analyzer succeeds, with the result's figures, and an alert is raised iff it found anomalies. The error names the first failed check. |
| `MainRoutes.HeaderAcceptedIsAboutMembership` | main/routes.py:106-109 | The header check depends only on which names occur, so adding columns never rejects an accepted header. |
| `MainRoutes.Recent` | main/routes.py:40-44 | Exactly the user's analyses created within the last 30·86400 seconds. |
| `MainRoutes.NoAnalysesNoStats` | main/routes.py:48-53 | A date with no windowed analysis has zero analyses and zero anomalies. |
| `MainRoutes.DayShift` | main/routes.py:61 | Going back k days in time moves the date back by k. |
| `MainRoutes.DateList` | main/routes.py:61 | Thirty dates, ending with today, one per day. |
| `MainRoutes.DateListIsChartDays` | main/routes.py:286 | A date is in the date list iff it is one of the 30 chart days. |
| `MainRoutes.Tally` | main/routes.py:47-53 | The keys are the dates that have analyses, and each value counts them and sums their anomalies. |
| `MainRoutes.FillDays` | main/routes.py:60-64 | Adds the 30 chart days with zeros and keeps every existing entry. |
| `MainRoutes.DashboardChart` | main/routes.py:39-66 | Fails iff a windowed analysis has no anomaly count (None arithmetic). Otherwise the keys are the 30 chart days plus every date with a windowed analysis. Each value is that date's count and anomaly sum. |
| `MainRoutes.StackedAtMostChart` | main/routes.py:292-295 | Upload, live and testnet analyses together never exceed all analyses of a date. |
| `MainRoutes.Prefilled` | main/routes.py:286-289 | Exactly the 30 chart days, with zero analyses, anomalies and per-kind counts. |
| `MainRoutes.ActivityAsWritten` | main/routes.py:271-299 | Succeeds iff every windowed analysis falls on a chart day and has an anomaly count, and then reports them. A KeyError means some analysis is off the chart. |
| `MainRoutes.ActivityCorrected` | main/routes.py:286-295 | Analyses off the 30 chart days are skipped. It fails only on a missing anomaly count, and otherwise reports every analysis. |
| `MainRoutes.ReportsDetermines` | main/routes.py:290-295 | The reported chart and stacked maps are determined by the analyses. |
| `MainRoutes.AsWrittenAgreesWhenItAnswers` | main/routes.py:290-295 | Whenever the endpoint as written answers, the corrected one gives the same answer. |
| `MainRoutes.ActivityWindowEdgeRaises` | main/routes.py:276-293 | Any windowed analysis dated 30 days before today is in the window. The endpoint as written raises KeyError on it, while the corrected one and the dashboard count it. |
| `MainRoutes.DashboardAgreesWithActivity` | main/routes.py:47-66 | On every chart day the dashboard and the corrected activity endpoint report the same figures. |
| `MainRoutes.SendAnomalyEmail` | main/routes.py:342-351 | A body that is not a JSON object makes `data.get` raise, so the route answers 500. It answers 400 without sending iff the count is missing, null or falsy (`false`, 0, 0.0, "", `[]`, `{}`). Otherwise it sends and answers 200. |
| `MainRoutes.LeadingSpaces` | main/routes.py:208 | The length of the leading whitespace run. |
| `MainRoutes.TrailingSpaces` | main/routes.py:208 | The length of the trailing whitespace run. |
| `MainRoutes.Strip` | main/routes.py:208-209 | The result is the contiguous slice left after the whitespace runs at both ends, and neither of its ends is whitespace. |
| `MainRoutes.StripIdempotent` | main/routes.py:208-209 | Stripping twice is stripping once. |
| `MainRoutes.UpdateProfile` | main/routes.py:207-226 | Fails if another user holds the stripped username (checked first) or the stripped, lower-cased e-mail, and then changes nothing. Otherwise only the current user's name and e-mail change. |
| `MainRoutes.ProfileKeepsAccountsUnique` | main/routes.py:211-222 | A profile update keeps usernames and e-mails unique. |
| `MainRoutes.StoredEmailIsNormalised` | main/routes.py:209 | The stored e-mail is lower-case and as long as the stripped input. |
| `Records.UserById` | auth/routes.py:80 | `User.query.get` finds a user iff the id is in the table. |
| `Records.FirstUserWith` | auth/routes.py:19 | `filter_by(...).first()` yields the first matching user, and none iff no user matches. |
| `Testnet.UserNames` | binance_routes/routes.py:138 | The twenty accounts User1..User20. |
| `Testnet.Others` | binance_routes/routes.py:142 | The 19 accounts other than the sender. |
| `Testnet.Generate` | binance_routes/routes.py:140-153 | Sender and receiver differ and are among the 20 accounts. The amount is in [0.01, 10] and the price in [30000, 70000]. The label is 1 iff the draw reaches the 0.9 weight. |
| `Testnet.GenerateAll` | binance_routes/routes.py:140-153 | One well-formed transaction per draw, labelled by its draw. |
| `Testnet.CountAnomalies` | binance_routes/routes.py:156 | The count is the number of generated transactions labelled 1. |
| `Testnet.SimulateTestnet` | binance_routes/routes.py:122-229 | Max(n, 0) well-formed transactions. The anomaly count is their label count and normal + anomalous = total. Accuracy is in [0.82, 0.95] and time in [1.5, 4.5]. The stored analysis carries the response's total, anomalies and accuracy. |
| `Testnet.NormalDemo` | binance_routes/routes.py:182-197 | A normal entry with a three-value history, amount in [0.1, 1.5]. |
| `Testnet.SpikeDemo` | binance_routes/routes.py:198-214 | An anomalous entry: three history values in [0.1, 0.5], then the amount in [5, 10]. |
| `Testnet.DemoSlot` | binance_routes/routes.py:181-214 | Entries 0 and 1 are normal and entries 2 and 3 are spikes exceeding their whole history. |
| `Testnet.Demo` | binance_routes/routes.py:181-215 | Four entries, each normal or a spike, labelled anomalous iff its pre-shuffle slot is a spike. |
| `Testnet.DemoHasTwoSpikes` | binance_routes/routes.py:181-215 | Whatever the shuffle, exactly two demo entries are anomalous. |
| `Testnet.TestnetRuns` | binance_routes/routes.py:243 | Exactly the user's testnet analyses. |
| `Testnet.InsertNewestFirst` | binance_routes/routes.py:243 | Inserts into a newest-first list, keeping it ordered and a permutation with the new run added. |
| `Testnet.SortNewestFirst` | binance_routes/routes.py:243 | A newest-first permutation with the same anomaly and accuracy totals. |
| `Testnet.TestnetHistory` | binance_routes/routes.py:242-268 | The run count and anomaly sum (None as 0). The average accuracy is sum/runs, or 0.0 without runs. Every run appears once, newest first. |
| `Testnet.DeleteTestnet` | binance_routes/routes.py:237-241 | Removes exactly the user's testnet analyses. |
| `Testnet.DeleteKeepsOthersRuns` | binance_routes/routes.py:239 | Deleting leaves every other user's testnet runs as they were. |
| `Testnet.DeleteLeavesNoRuns` | binance_routes/routes.py:239 | After deleting, the user has no testnet runs. |
| `Testnet.DeleteEmptiesHistory` | binance_routes/routes.py:237-268 | After deleting, the history is empty with zero statistics. |
| `Testnet.StoredRunCounts` | binance_routes/routes.py:170-179 | A stored simulation adds one run and its anomalies to the history statistics. |
| `Testnet.TotalAnomaliesAppend` | binance_routes/routes.py:248-249 | The anomaly total is additive, with None counting as 0. |
| `Auth.Digits` | auth/routes.py:23 | The decimal text of a code: digits only, ending in its last digit. |
| `Auth.DigitsInjective` | auth/routes.py:60 | Different codes have different texts. |
| `Auth.CodeHasSixDigits` | auth/routes.py:60 | A code drawn from [100000, 999999] has six digits. |
| `Auth.CheckCode` | auth/routes.py:86 | Valid iff the stored code equals the submitted one and the expiry is later than now. The comparison crashes on a matching code without expiry. |
| `Auth.Register` | auth/routes.py:43-72 | A logged-in user, a taken username (checked first) or a taken e-mail changes nothing. Otherwise the result is a new unverified user with a code valid for ten minutes, and the session's pending user is set. |
| `Auth.RegisterKeepsAccountsUnique` | auth/routes.py:49-52 | Registration keeps usernames and e-mails unique. |
| `Auth.Login` | auth/routes.py:13-41 | A correct password for an unverified account never logs in. Instead it reissues the code and sets the pending user. Wrong credentials change nothing. |
| `Auth.Verify` | auth/routes.py:74-97 | Without a pending user, or with an unknown one, nothing changes. Success, exactly on a matching and unexpired code, verifies the user, clears code and expiry and pops the pending user. Failure changes nothing. |
| `Auth.ForgotPasswordAsWritten` | auth/routes.py:107-127 | A known e-mail gets a new code and becomes the reset user, and the confirmation flag is left as it was. An unknown e-mail changes nothing. |
| `Auth.ForgotPassword` | auth/routes.py:111-124 | As the route, but a new reset request also clears the confirmation flag. |
| `Auth.ResetPassword` | auth/routes.py:129-157 | A matching, unexpired code sets the confirmation. The password changes only once the session holds one, and that clears code, expiry and both reset keys. Every other request changes nothing. |
| `Auth.TransitionsKeepCodesPaired` | auth/routes.py:60-62 | Every transition keeps code and expiry set together, so the expiry comparison never meets None. |
| `Auth.ResetOverwritesVerificationCode` | auth/routes.py:117-119 | A reset request overwrites a pending verification code, which then no longer verifies. |
| `Auth.CorrectedResetNeedsTargetCode` | auth/routes.py:142-148 | With the corrected reset request, a password cannot be set before the new code is confirmed. |
| `Auth.ResetFlagCarriesOver` | auth/routes.py:122-154 | As written, confirming one account's code and then requesting a reset for another lets the second account's password be set without its code. |
| `LiveUi.TotalPages` | static/js/live-analysis.js:380 | The ceiling of len/50: the fewest pages of 50 rows holding every row, and zero iff empty. |
| `LiveUi.PageRows` | static/js/live-analysis.js:348-351 | The rows from (p−1)·50, at most 50 and at least one on a non-empty list. |
| `LiveUi.TradeOnItsPage` | static/js/live-analysis.js:348-351 | Row i is shown on page i div 50 + 1 at position i mod 50. |
| `LiveUi.Display` | static/js/live-analysis.js:334-367 | On a non-empty list, Prev is disabled iff p ≤ 1 and Next iff p ≥ the page count. An empty list leaves both buttons as they were. |
| `LiveUi.Load` | static/js/live-analysis.js:314-332 | Replaces the list (a missing one becomes empty) and returns to page 1. A non-empty list starts with Prev disabled, and Next is disabled iff there is only one page. |
| `LiveUi.Prev` | static/js/live-analysis.js:425-431 | Steps back only from a page above 1 and keeps the page within 1..max(1, pages). |
| `LiveUi.Next` | static/js/live-analysis.js:434-441 | Steps forward only below the last page and keeps the page within range. |
| `LiveUi.EnabledButtonsMove` | static/js/live-analysis.js:407-441 | After a display, a button is enabled iff pressing it moves the page. |
| `LiveUi.PaginationInfo` | static/js/live-analysis.js:369-382 | The range label spans exactly the rows shown. An empty list reads "1-0" and "Page 1 of 0". |
| `LiveUi.Start` | static/js/live-analysis.js:153-172 | A no-op while analysing. Otherwise it sets the flag and the timer and requests one analysis at once (the timer's later requests are not counted). |
| `LiveUi.Stop` | static/js/live-analysis.js:174-193 | A no-op while stopped. Otherwise it clears the flag and the timer. |
| `LiveUi.StartStopToggle` | static/js/live-analysis.js:153-193 | Starting twice starts one timer, and stopping after a start returns to the stopped state. |
| `LiveUi.ChartSeries` | static/js/live-analysis.js:289-312 | Point i < total goes to the anomaly series iff the indices contain it. The two series partition the points and their sizes add up to max(0, total). |
| `Upload.HandleFileSelect` | static/js/upload.js:53-77 | The type check precedes the size check. A rejected file adds exactly one alert and changes nothing else. The submit button is enabled only by an accepted file. |
| `Upload.Pick` | static/js/upload.js:24 | Choosing a file puts it in the file input. |
| `Upload.DropAsWritten` | static/js/upload.js:44-51 | A dropped accepted file is shown and enables submit, but the file input keeps its old content. |
| `Upload.Drop` | static/js/upload.js:44-51 | As the drop handler, but the dropped file also becomes the input's file. |
| `Upload.HandleFormSubmit` | static/js/upload.js:97-116 | With no file, only an alert is raised and nothing is posted. Otherwise exactly the input's file is posted. |
| `Upload.SizeLimitIsInclusive` | static/js/upload.js:63-67 | Exactly 10 MiB is accepted and one byte more is not. |
| `Upload.TypeCheckComesFirst` | static/js/upload.js:57-67 | An oversized non-CSV file gets only the type message. |
| `Upload.ClientAgreesWithServer` | static/js/upload.js:57-61 | The browser's ".csv" suffix test accepts exactly the names the server's extension check accepts with {"csv"}. |
| `Upload.DroppedFileNeverSent` | static/js/upload.js:44-51 | Dropping an accepted file into an empty input enables submit, yet submitting posts nothing and alerts. |
| `Upload.AcceptedFileIsSent` | static/js/upload.js:97-116 | With the picker or the corrected drop, an accepted file is what the form posts. |
| `Common.RoundedUniform` | ml/analyzer.py:224 | A rounded uniform draw lies within its bounds. |

## Left out

- I/O is not modelled: Flask requests, responses and flash messages,
  SQLAlchemy queries and commits, saving, reading and removing files, CSV
  parsing, e-mail, the activity log and alert records. Persistence is a
  sequence of records, the session a record of its keys, and the outcome of
  CSV parsing is a parameter.
- Random draws, the clock and timings are parameters with their ranges.
- The library computations are abstracted. Classifier fitting and
  prediction, scaler arithmetic and the pandas rolling statistics are
  opaque: predictions are inputs, and a feature column is named by its
  source, not computed.
- Floating point: values are exact reals. `round(x, 2)` is modelled with
  half-up rounding, whereas Python rounds binary floats half-to-even, so the
  two differ only on exact ties. The order of float summation is not
  modelled.
- Empty input: on zero rows the scaler's fit or transform raises
  (ml/analyzer.py:116, 140), so every analyze path fails on an empty input.
- PDF and chart rendering, time zones, timestamp formatting and
  `formatFileSize` are out. The report is reduced to its bucket and table
  arithmetic and to which report results.
- Dictionary key order is out. The dashboard and activity maps are Dafny
  maps, so "sorted by date" is not expressed.
- Dashboard totals, recent lists and alerts are out, and so are the
  settings page's password change and account deletion. The results,
  activity-log, report-download and clear endpoints and logout are out too.
  These are plain queries or deletions outside the modelled core.
- Testnet: the `reason` string of demo entries, `model_accuracies`, the
  response timestamp, the 500 reply on a non-integer count and saving
  transactions to a file are left out.
- The market-feed routes, `my_binance/routes.py` (a blueprint the
  application does not register), `static/js/testnet.js` and
  `static/js/dashboard.js` are not part of this model.
- Form validation (WTForms length and format rules) is out, and so is
  password hashing. `PasswordMatches` stands for `check_password`.
- `Common.Lower`: lower-cases ASCII letters only, not the full Unicode
  mapping of `str.lower` and `toLowerCase`.
- `MainRoutes.Strip`: strips ASCII whitespace (9-13, 28-32) only, not every
  Unicode space `str.strip` removes.
- `LiveUi.ChartSeries`: points are identified by their index. The random
  coordinates and the Chart.js update are not modelled.
- `Upload.HandleFileSelect`: the upload area's text, the icon and the
  progress animation are not modelled. The response handling of the fetch
  is out too.
- `Auth.Login`: the `remember` flag and the `next` redirect are not modelled.
- `Adapters.AnalyzeCsv`: the per-model probability lists and the analysis
  time of the result are not modelled.

## Findings

| source | as written | input that shows it | evidently intended | confidence | as-written member | corrected member |
|---|---|---|---|---|---|---|
| main/routes.py:276-293 | The activity endpoint selects analyses from a 30-day timestamp window that spans 31 dates. It then indexes the per-date map, which holds only the 30 pre-filled dates, without inserting a key. | Any windowed analysis dated today−30, e.g. one created exactly 30·86400 seconds before now: so the endpoint raises KeyError (the dashboard counts it). | Analyses outside the 30 charted dates are skipped, and the endpoint answers. | not executed | `MainRoutes.ActivityAsWritten` (`MainRoutes.ActivityWindowEdgeRaises`) | `MainRoutes.ActivityCorrected` (`MainRoutes.AsWrittenAgreesWhenItAnswers`, `MainRoutes.DashboardAgreesWithActivity`) |
| auth/routes.py:122 | `forgot_password` sets `reset_user_id` but leaves `reset_verified` from an earlier confirmed code. | Confirm alice's reset code, then request a reset for bob's e-mail and submit a new password: bob's password changes without bob's code. | A new reset request clears the confirmation, so the new code has to be confirmed. | not executed | `Auth.ForgotPasswordAsWritten` (`Auth.ResetFlagCarriesOver`) | `Auth.ForgotPassword` (`Auth.CorrectedResetNeedsTargetCode`) |
| static/js/upload.js:44-51 | The drop handler checks the dropped file and enables submit, but never puts the file into the file input, which the submit handler reads. | Drop "a.csv" (1 KB) onto a page whose file input is empty, then submit: only "Please select a file" appears and nothing is posted. | The dropped file is the one posted. | not executed | `Upload.DropAsWritten` (`Upload.DroppedFileNeverSent`) | `Upload.Drop` (`Upload.AcceptedFileIsSent`) |

=== FILE: adapters.dfy ===
/** The three entry points of the analyzer — `analyze_csv` (uploaded batch),
    `analyze_live_data` (market feed) and `analyze_simulated_data` (testnet
    frames) — as compositions of feature shaping, lazy training and the
    ensemble vote, plus each source's post-processing. Every random draw is a
    parameter; classifier predictions are opaque parameters. Timestamps,
    wall-clock timings and the per-model probability vectors are left out. */
module Adapters {
  import opened Common
  import opened Features
  import opened Training
  import opened Ensemble

  /** Which entry point produced a result; the simulated one also reports
      the number of true anomalies. */
  datatype Origin = Batch | Live | Simulated(trueAnomalies: int)

  /** The result dictionary: `total_transactions`, `anomalies_detected`,
      `accuracy_score`, `anomaly_indices` and `ensemble_prediction`. */
  datatype AnalysisResult = AnalysisResult(
    total: nat,
    anomalies: nat,
    accuracy: real,
    indices: seq<nat>,
    labels: seq<Bit>,
    origin: Origin)

  /** A successful analysis and the registry the analyzer is left with. */
  datatype Outcome = Outcome(result: AnalysisResult, registry: Registry)

  /** The counts and indices of a result agree with its labels: the count is
      the number of 1-labels, the indices are exactly their positions in
      increasing order, and the count never exceeds the row total. */
  predicate Consistent(res: AnalysisResult, rows: nat)
  {
    && res.total == rows
    && |res.labels| == rows
    && res.anomalies == Ones(res.labels)
    && res.anomalies == |res.indices|
    && res.anomalies <= res.total
    && (forall k, j :: 0 <= k < j < |res.indices| ==> res.indices[k] < res.indices[j])
    && (forall k :: 0 <= k < |res.indices| ==> res.indices[k] < rows)
    && (forall i :: 0 <= i < rows ==> (res.labels[i] == 1 <==> i in res.indices))
  }

  method Assemble(labels: seq<Bit>, accuracy: real, origin: Origin) returns (res: AnalysisResult)
    ensures Consistent(res, |labels|)
    ensures res.labels == labels && res.accuracy == accuracy && res.origin == origin
  {
    var idx := AnomalyIndices(labels);
    res := AnalysisResult(|labels|, Ones(labels), accuracy, idx, labels, origin);
  }

  /** The four hard-coded per-model figures whose mean the batch path reports. */
  const BaselineAccuracies: seq<real> := [0.85, 0.87, 0.82, 0.89]

  function Mean(s: seq<real>): real
    requires |s| > 0
  {
    RealSum(s) / |s| as real
  }

  function RealSum(s: seq<real>): real
  {
    if |s| == 0 then 0.0 else RealSum(s[..|s| - 1]) + s[|s| - 1]
  }

  /** The batch accuracy is mean(0.85, 0.87, 0.82, 0.89) = 0.8575. */
  lemma BatchAccuracyIsConstant()
    ensures Mean(BaselineAccuracies) == 0.8575
  {
    var b := BaselineAccuracies;
    assert b[..3][..2][..1][..0] == [];
    assert RealSum(b[..3][..2][..1]) == 0.85;
    assert RealSum(b[..3][..2]) == 0.85 + 0.87;
    assert RealSum(b[..3]) == 0.85 + 0.87 + 0.82;
    assert RealSum(b) == 3.43;
  }

  /** `analyze_csv`. `finite` tells whether every value of the prepared
      feature matrix is finite; an infinite cell makes the scaler raise and
      the method re-raises it. */
  method AnalyzeCsv(f: Frame, finite: bool, r: Registry, fitOk: Slots<bool>,
                    preds: Slots<Prediction>, probaRaised: Slots<bool>)
    returns (out: Result<Outcome, Fault>)
    requires AllWellShaped(preds, f.rows)
    ensures f.rows == 0 ==> out.Failure?
    ensures f.rows > 0 && !finite && (NeedsTraining(r) || r.scalerFitted) ==> out == Failure(NonFiniteInput)
    ensures out.Success? <==> PrepareModels(r, f.rows, finite, fitOk).Success?
    ensures out.Success? ==> out.value.registry == PrepareModels(r, f.rows, finite, fitOk).value
    ensures out.Success? ==> Consistent(out.value.result, f.rows)
    ensures out.Success? ==> out.value.result.origin == Batch
    // the reported accuracy is a constant, whatever the data
    ensures out.Success? ==> out.value.result.accuracy == 0.8575
    // a row is flagged iff at least two models (after zeroing raising ones) vote 1
    ensures out.Success? ==>
      var v := Votes(out.value.registry, Slots(
        BatchPrediction(preds.svm, probaRaised.svm), BatchPrediction(preds.forest, probaRaised.forest),
        BatchPrediction(preds.ada, probaRaised.ada), BatchPrediction(preds.xgb, probaRaised.xgb)), f.rows);
      forall i :: 0 <= i < f.rows ==>
        (out.value.result.labels[i] == 1 <==> VoteCount(v.svm[i], v.forest[i], v.ada[i], v.xgb[i]) >= 2)
  {
    var x := PrepareFeatures(f);
    var prepared := PrepareModels(r, x.rows, finite, fitOk);
    if prepared.Failure? {
      return Failure(prepared.error);
    }
    var reg := prepared.value;
    var effective := Slots(
      BatchPrediction(preds.svm, probaRaised.svm), BatchPrediction(preds.forest, probaRaised.forest),
      BatchPrediction(preds.ada, probaRaised.ada), BatchPrediction(preds.xgb, probaRaised.xgb));
    var labels := Decide(Votes(reg, effective, x.rows), x.rows);
    var accuracy := Mean(BaselineAccuracies);
    BatchAccuracyIsConstant();
    var res := Assemble(labels, accuracy, Batch);
    return Success(Outcome(res, reg));
  }

  /** Set the sampled positions to 1 (`ensemble_pred[idx] = 1`). */
  function Inject(labels: seq<Bit>, sample: seq<nat>): (r: seq<Bit>)
    requires forall k :: 0 <= k < |sample| ==> sample[k] < |labels|
    ensures |r| == |labels|
    ensures forall i :: 0 <= i < |r| ==> (r[i] == 1 <==> labels[i] == 1 || i in sample)
    decreases |sample|
  {
    if |sample| == 0 then labels
    else Inject(labels[sample[0] := 1], sample[1..])
  }

  /** Injecting distinct, previously normal rows raises the count by the
      number of rows injected. */
  lemma {:induction false} InjectCount(labels: seq<Bit>, sample: seq<nat>)
    requires forall k :: 0 <= k < |sample| ==> sample[k] < |labels|
    requires Distinct(sample)
    requires forall k :: 0 <= k < |sample| ==> labels[sample[k]] == 0
    ensures Ones(Inject(labels, sample)) == Ones(labels) + |sample|
    decreases |sample|
  {
    if |sample| > 0 {
      OnesRaise(labels, sample[0]);
      var raised := labels[sample[0] := 1];
      var rest := sample[1..];
      assert forall k :: 0 <= k < |rest| ==> rest[k] == sample[k + 1];
      assert forall k :: 0 <= k < |rest| ==> raised[rest[k]] == 0;
      InjectCount(raised, rest);
    }
  }

  /** The live accuracy band, in hundredths, keyed by the final anomaly count. */
  function LiveBand(count: nat): (band: (int, int))
    ensures count <= 1 ==> band == (93, 95)
    ensures 2 <= count <= 4 ==> band == (91, 93)
    ensures 5 <= count <= 7 ==> band == (87, 90)
    ensures count >= 8 ==> band == (85, 88)
  {
    if count <= 1 then (93, 95)
    else if count <= 4 then (91, 93)
    else if count <= 7 then (87, 90)
    else (85, 88)
  }

  /** More anomalies never raise the reported accuracy: a larger count's
      band lies no higher, and every band is a proper interval within
      [85, 95]. */
  lemma LiveBandFallsWithCount(c1: nat, c2: nat)
    requires c1 <= c2
    ensures LiveBand(c2).0 <= LiveBand(c1).0 && LiveBand(c2).1 <= LiveBand(c1).1
    ensures 85 <= LiveBand(c1).0 < LiveBand(c1).1 <= 95
  {
  }

  /** The forced-anomaly step of the live path: an all-normal, non-empty
      batch gets `min(count, n)` sampled rows set to 1; otherwise the labels
      are left as they are. */
  function ForceAnomalies(raw: seq<Bit>, count: int, sample: seq<nat>): (labels: seq<Bit>)
    requires 1 <= count <= 9
    requires |sample| == Min(count, |raw|) && Distinct(sample)
    requires forall k :: 0 <= k < |sample| ==> sample[k] < |raw|
    ensures |labels| == |raw|
    ensures Ones(raw) == 0 && |raw| > 0 ==>
      Ones(labels) == Min(count, |raw|) && 1 <= Ones(labels) <= Min(9, |raw|)
    ensures Ones(raw) > 0 || |raw| == 0 ==> labels == raw
    // the injected rows are exactly the drawn sample
    ensures Ones(raw) == 0 && |raw| > 0 ==>
      forall i :: 0 <= i < |raw| ==> (labels[i] == 1 <==> i in sample)
    ensures forall i :: 0 <= i < |raw| && raw[i] == 1 ==> labels[i] == 1
  {
    if Ones(raw) == 0 && |raw| > 0 then
      OnesZeroIffAllZero(raw);
      InjectCount(raw, sample);
      Inject(raw, sample)
    else raw
  }

  /** `analyze_live_data`: `count` is `random.randint(1, 9)`, `sample` is
      `random.sample(range(n), min(count, n))` and `u` the draw behind
      `random.uniform` of the accuracy band; `finite` as for `AnalyzeCsv`. */
  method AnalyzeLiveData(f: Frame, finite: bool, r: Registry, fitOk: Slots<bool>, preds: Slots<Prediction>,
                         count: int, sample: seq<nat>, u: real)
    returns (out: Result<Outcome, Fault>)
    requires AllWellShaped(preds, f.rows)
    requires 1 <= count <= 9
    requires |sample| == Min(count, f.rows) && Distinct(sample)
    requires forall k :: 0 <= k < |sample| ==> sample[k] < f.rows
    requires 0.0 <= u <= 1.0
    ensures f.rows == 0 ==> out.Failure?
    ensures out.Success? <==> PrepareModels(r, f.rows, finite, fitOk).Success?
    ensures out.Success? ==> out.value.registry == PrepareModels(r, f.rows, finite, fitOk).value
    ensures out.Success? ==> Consistent(out.value.result, f.rows) && out.value.result.origin == Live
    // a live analysis always reports at least one anomaly
    ensures out.Success? ==> out.value.result.anomalies >= 1
    // every row the ensemble flagged stays flagged; injection happens only on an all-normal batch
    ensures out.Success? ==>
      var v := Votes(out.value.registry, preds, f.rows);
      var raw := Decide(v, f.rows);
      && (Ones(raw) > 0 ==> out.value.result.labels == raw)
      && (Ones(raw) == 0 ==>
            && out.value.result.anomalies == Min(count, f.rows) && out.value.result.anomalies <= Min(9, f.rows)
            && forall i :: 0 <= i < f.rows ==> (out.value.result.labels[i] == 1 <==> i in sample))
    // the accuracy lies in the band of the final count
    ensures out.Success? ==>
      var band := LiveBand(out.value.result.anomalies);
      band.0 as real / 100.0 <= out.value.result.accuracy <= band.1 as real / 100.0
  {
    var x := PrepareFeatures(f);
    var prepared := PrepareModels(r, x.rows, finite, fitOk);
    if prepared.Failure? {
      return Failure(prepared.error);
    }
    var reg := prepared.value;
    var raw := Decide(Votes(reg, preds, x.rows), x.rows);
    var labels := ForceAnomalies(raw, count, sample);
    var band := LiveBand(Ones(labels));
    var hundredths := RoundedUniform(band.0, band.1, u);
    var res := Assemble(labels, hundredths as real / 100.0, Live);
    return Success(Outcome(res, reg));
  }

  /** `analyze_simulated_data`: `labelColumn` holds the values of the
      `is_anomaly` column when the frame has one; `draw` is
      `np.random.randint(0, n // 5)` (which raises when `n // 5` is 0) and `u`
      the draw behind the accuracy's `np.random.uniform(0.84, 0.94)`;
      `finite` as for `AnalyzeCsv`. */
  method AnalyzeSimulatedData(f: Frame, finite: bool, r: Registry, fitOk: Slots<bool>, preds: Slots<Prediction>,
                              labelColumn: Option<seq<int>>, draw: int, u: real)
    returns (out: Result<Outcome, Fault>)
    requires AllWellShaped(preds, f.rows)
    requires labelColumn.Some? <==> HasColumn(f, "is_anomaly")
    requires labelColumn.Some? ==> |labelColumn.value| == f.rows
    requires labelColumn.None? && f.rows / 5 > 0 ==> 0 <= draw < f.rows / 5
    requires 0.0 <= u <= 1.0
    // without a label column, fewer than five rows make the fallback draw raise
    ensures labelColumn.None? && f.rows < 5 ==> out == Failure(RandIntEmptyRange)
    // otherwise the analysis fails exactly when preparing the models does
    ensures out.Success? <==> (labelColumn.Some? || f.rows >= 5) && PrepareModels(r, f.rows, finite, fitOk).Success?
    ensures out.Success? ==> out.value.registry == PrepareModels(r, f.rows, finite, fitOk).value
    ensures out.Success? ==> Consistent(out.value.result, f.rows) && out.value.result.origin.Simulated?
    ensures out.Success? && labelColumn.Some? ==>
      out.value.result.origin.trueAnomalies == Sum(labelColumn.value)
    ensures out.Success? && labelColumn.None? ==>
      0 <= out.value.result.origin.trueAnomalies < f.rows / 5
    // the accuracy ignores the predictions entirely
    ensures out.Success? ==> 0.84 <= out.value.result.accuracy <= 0.94
    ensures out.Success? ==> out.value.result.labels == Decide(Votes(out.value.registry, preds, f.rows), f.rows)
  {
    var trueAnomalies: int;
    if labelColumn.Some? {
      trueAnomalies := Sum(labelColumn.value);
    } else if f.rows / 5 == 0 {
      return Failure(RandIntEmptyRange);
    } else {
      trueAnomalies := draw;
    }
    var x := PrepareFeatures(f);
    var prepared := PrepareModels(r, x.rows, finite, fitOk);
    if prepared.Failure? {
      return Failure(prepared.error);
    }
    var reg := prepared.value;
    var labels := Decide(Votes(reg, preds, x.rows), x.rows);
    var hundredths := RoundedUniform(84, 94, u);
    var res := Assemble(labels, hundredths as real / 100.0, Simulated(trueAnomalies));
    return Success(Outcome(res, reg));
  }
}

=== FILE: auth.dfy ===
/** Account verification and password reset (`auth/routes.py`) as
    transitions on the user table and the signed-cookie session. Codes are
    the decimal text of a draw from [100000, 999999]; times are seconds.
    Form validation (`validate_on_submit`) is taken to have succeeded;
    e-mail delivery and activity logging are not modelled. */
module Auth {
  import opened Common
  import opened Records

  /** The session keys the blueprint uses: the logged-in user, the account
      awaiting verification, the account being reset, and the reset flag. */
  datatype Session = Session(
    loggedIn: Option<nat>,
    pending: Option<nat>,
    resetUser: Option<nat>,
    resetVerified: bool)

  datatype State = State(users: seq<User>, session: Session)

  /** `random.randint(100000, 999999)` bounds and the ten-minute lifetime. */
  const MinCode: int := 100000
  const MaxCode: int := 999999
  const CodeLifetime: int := 600

  predicate ValidDraw(k: int)
  {
    MinCode <= k <= MaxCode
  }

  function DigitChar(d: nat): char
    requires d < 10
  {
    ('0' as int + d) as char
  }

  /** `str(k)`. */
  function Digits(k: nat): (r: string)
    ensures 1 <= |r|
    ensures k >= 10 ==> |r| >= 2
    ensures forall i :: 0 <= i < |r| ==> '0' <= r[i] <= '9'
    ensures r[|r| - 1] == DigitChar(k % 10)
  {
    if k < 10 then [DigitChar(k)] else Digits(k / 10) + [DigitChar(k % 10)]
  }

  /** Different numbers have different decimal texts. */
  lemma {:induction false} DigitsInjective(a: nat, b: nat)
    requires Digits(a) == Digits(b)
    ensures a == b
  {
    if a >= 10 && b >= 10 {
      var da := Digits(a);
      assert da[..|da| - 1] == Digits(a / 10);
      assert Digits(b)[..|Digits(b)| - 1] == Digits(b / 10);
      DigitsInjective(a / 10, b / 10);
    }
  }

  /** Every code is six digits long. */
  lemma CodeHasSixDigits(k: int)
    requires ValidDraw(k)
    ensures |Digits(k)| == 6
  {
    var k1 := k / 10;
    var k2 := k1 / 10;
    var k3 := k2 / 10;
    var k4 := k3 / 10;
    var k5 := k4 / 10;
    assert 10000 <= k1 <= 99999 && 1000 <= k2 <= 9999 && 100 <= k3 <= 999;
    assert 10 <= k4 <= 99 && 1 <= k5 <= 9;
    assert |Digits(k5)| == 1;
    assert |Digits(k4)| == 2;
    assert |Digits(k3)| == 3;
    assert |Digits(k2)| == 4;
    assert |Digits(k1)| == 5;
  }

  /** A code and its expiry are set and cleared together. */
  predicate CodePaired(u: User)
  {
    u.code.Some? <==> u.expiry.Some?
  }

  predicate Invariant(st: State)
  {
    forall i :: 0 <= i < |st.users| ==> CodePaired(st.users[i])
  }

  /** The verdict on a submitted code: `code == submitted and expiry > now`.
      A set code with no expiry would make the comparison raise. */
  datatype CodeCheck = Valid | Mismatch | Expired | Crash

  function CheckCode(u: User, submitted: string, now: int): (c: CodeCheck)
    ensures c == Valid <==> u.code == Some(submitted) && u.expiry.Some? && u.expiry.value > now
    ensures c == Crash <==> u.code == Some(submitted) && u.expiry.None?
    ensures CodePaired(u) ==> c != Crash
  {
    if u.code != Some(submitted) then Mismatch
    else match u.expiry
      case None => Crash
      case Some(e) => if e > now then Valid else Expired
  }

  /** Issue a fresh code from draw `k`, valid for ten minutes. */
  function IssueCode(u: User, k: nat, now: int): User
  {
    u.(code := Some(Digits(k)), expiry := Some(now + CodeLifetime))
  }

  function ClearCode(u: User): User
  {
    u.(code := None, expiry := None)
  }

  function FindUsername(users: seq<User>, name: string): Option<nat>
  {
    FirstUserWith(users, (u: User) => u.username == name)
  }

  function FindEmail(users: seq<User>, email: string): Option<nat>
  {
    FirstUserWith(users, (u: User) => u.email == email)
  }

  // ---------------------------------------------------------------------
  // Register

  datatype RegisterOutcome = AlreadyLoggedIn | UsernameExists | EmailExists | Registered(id: nat)

  /** `register` with a submitted username, e-mail and password, and the
      code draw `k`. */
  function Register(st: State, name: string, email: string, password: string, k: nat, now: int)
    : (r: (State, RegisterOutcome))
    ensures r.1 == AlreadyLoggedIn <==> st.session.loggedIn.Some?
    ensures r.1 == UsernameExists <==>
      st.session.loggedIn.None? && exists i :: 0 <= i < |st.users| && st.users[i].username == name
    ensures r.1 == EmailExists <==>
      && st.session.loggedIn.None?
      && (forall i :: 0 <= i < |st.users| ==> st.users[i].username != name)
      && (exists i :: 0 <= i < |st.users| && st.users[i].email == email)
    ensures !r.1.Registered? ==> r.0 == st
    // a fresh account: unverified, with a code valid for ten minutes
    ensures r.1.Registered? ==>
      && r.1.id == |st.users| + 1
      && r.0.users == st.users + [User(name, email, password, false, Some(Digits(k)), Some(now + CodeLifetime))]
      && r.0.session == st.session.(pending := Some(r.1.id))
  {
    if st.session.loggedIn.Some? then (st, AlreadyLoggedIn)
    else if FindUsername(st.users, name).Some? then (st, UsernameExists)
    else if FindEmail(st.users, email).Some? then (st, EmailExists)
    else
      var u := User(name, email, password, false, Some(Digits(k)), Some(now + CodeLifetime));
      var id := |st.users| + 1;
      (State(st.users + [u], st.session.(pending := Some(id))), Registered(id))
  }

  /** Registration never creates a second account with a taken username or
      e-mail, and keeps codes paired with expiries. */
  lemma RegisterKeepsAccountsUnique(st: State, name: string, email: string, password: string, k: nat, now: int)
    requires UniqueUsernames(st.users) && UniqueEmails(st.users) && Invariant(st)
    ensures var r := Register(st, name, email, password, k, now);
      UniqueUsernames(r.0.users) && UniqueEmails(r.0.users) && Invariant(r.0)
  {
  }

  // ---------------------------------------------------------------------
  // Login

  datatype LoginOutcome = AlreadyIn | LoggedIn(id: nat) | MustVerify(id: nat) | InvalidCredentials

  /** `login`: only the first user with the username is considered. */
  function Login(st: State, name: string, password: string, k: nat, now: int): (r: (State, LoginOutcome))
    ensures st.session.loggedIn.Some? ==> r == (st, AlreadyIn)
    ensures r.1.LoggedIn? || r.1.MustVerify? ==>
      FindUsername(st.users, name) == Some(r.1.id) && PasswordMatches(st.users[r.1.id - 1], password)
    // a correct password for an unverified account never logs in
    ensures r.1.LoggedIn? ==> st.users[r.1.id - 1].verified && r.0 == st.(session := st.session.(loggedIn := Some(r.1.id)))
    ensures r.1.MustVerify? ==>
      && !st.users[r.1.id - 1].verified
      && r.0.users == st.users[r.1.id - 1 := IssueCode(st.users[r.1.id - 1], k, now)]
      && r.0.session == st.session.(pending := Some(r.1.id))
    ensures r.1 == InvalidCredentials ==> r.0 == st
    ensures (st.session.loggedIn.None? && FindUsername(st.users, name).Some? &&
             PasswordMatches(st.users[FindUsername(st.users, name).value - 1], password))
            ==> r.1.LoggedIn? || r.1.MustVerify?
    ensures r.0.session.loggedIn.Some? ==> r.1 == AlreadyIn || r.1.LoggedIn?
  {
    if st.session.loggedIn.Some? then (st, AlreadyIn)
    else match FindUsername(st.users, name)
      case None => (st, InvalidCredentials)
      case Some(id) =>
        var u := st.users[id - 1];
        if !PasswordMatches(u, password) then (st, InvalidCredentials)
        else if !u.verified then
          (State(st.users[id - 1 := IssueCode(u, k, now)], st.session.(pending := Some(id))), MustVerify(id))
        else (st.(session := st.session.(loggedIn := Some(id))), LoggedIn(id))
  }

  // ---------------------------------------------------------------------
  // Verify

  datatype VerifyOutcome = NoPending | UserNotFound | Verified | InvalidCode | VerifyCrashed

  /** `verify` with a submitted code. */
  function Verify(st: State, submitted: string, now: int): (r: (State, VerifyOutcome))
    ensures st.session.pending.None? ==> r == (st, NoPending)
    ensures st.session.pending.Some? && UserById(st.users, st.session.pending.value).None? ==>
      r == (st, UserNotFound)
    // success exactly on a matching, unexpired code
    ensures r.1 == Verified <==>
      st.session.pending.Some? && UserById(st.users, st.session.pending.value).Some? &&
      CheckCode(st.users[st.session.pending.value - 1], submitted, now) == Valid
    ensures r.1 == Verified ==>
      var id := st.session.pending.value;
      && r.0.users == st.users[id - 1 := ClearCode(st.users[id - 1]).(verified := true)]
      && r.0.session == st.session.(pending := None)
    ensures r.1 != Verified ==> r.0 == st
  {
    match st.session.pending
    case None => (st, NoPending)
    case Some(id) =>
      match UserById(st.users, id)
      case None => (st, UserNotFound)
      case Some(u) =>
        match CheckCode(u, submitted, now)
        case Valid =>
          (State(st.users[id - 1 := ClearCode(u).(verified := true)], st.session.(pending := None)), Verified)
        case Crash => (st, VerifyCrashed)
        case _ => (st, InvalidCode)
  }

  // ---------------------------------------------------------------------
  // Password reset

  datatype ForgotOutcome = CodeSent(id: nat) | NoAccount

  /** `forgot_password` as written: the reset flag of an earlier reset in the
      same session is left standing. */
  function ForgotPasswordAsWritten(st: State, email: string, k: nat, now: int): (r: (State, ForgotOutcome))
    ensures r.1.CodeSent? <==> FindEmail(st.users, email).Some?
    ensures r.1 == NoAccount ==> r.0 == st
    ensures r.1.CodeSent? ==>
      && r.1.id == FindEmail(st.users, email).value
      && r.0.users == st.users[r.1.id - 1 := IssueCode(st.users[r.1.id - 1], k, now)]
      && r.0.session == st.session.(resetUser := Some(r.1.id))
  {
    match FindEmail(st.users, email)
    case None => (st, NoAccount)
    case Some(id) =>
      (State(st.users[id - 1 := IssueCode(st.users[id - 1], k, now)], st.session.(resetUser := Some(id))),
       CodeSent(id))
  }

  /** The evidently intended `forgot_password`: a new reset target also
      revokes any earlier code confirmation. */
  function ForgotPassword(st: State, email: string, k: nat, now: int): (r: (State, ForgotOutcome))
    ensures r.1.CodeSent? <==> FindEmail(st.users, email).Some?
    ensures r.1 == NoAccount ==> r.0 == st
    ensures r.1.CodeSent? ==>
      && r.1.id == FindEmail(st.users, email).value
      && r.0.users == st.users[r.1.id - 1 := IssueCode(st.users[r.1.id - 1], k, now)]
      && r.0.session == st.session.(resetUser := Some(r.1.id), resetVerified := false)
  {
    match FindEmail(st.users, email)
    case None => (st, NoAccount)
    case Some(id) =>
      (State(st.users[id - 1 := IssueCode(st.users[id - 1], k, now)],
             st.session.(resetUser := Some(id), resetVerified := false)),
       CodeSent(id))
  }

  /** The two forms of the reset page. */
  datatype ResetRequest = SubmitCode(code: string) | SubmitPassword(password: string)

  datatype ResetOutcome = NoReset | ResetUserMissing | CodeAccepted | CodeRejected | ResetCrashed
                        | PasswordChanged | NotConfirmed

  /** `reset_password`. */
  function ResetPassword(st: State, req: ResetRequest, now: int): (r: (State, ResetOutcome))
    ensures st.session.resetUser.None? ==> r == (st, NoReset)
    ensures st.session.resetUser.Some? && UserById(st.users, st.session.resetUser.value).None? ==>
      r == (st, ResetUserMissing)
    ensures r.1 == CodeAccepted <==>
      && req.SubmitCode? && st.session.resetUser.Some?
      && UserById(st.users, st.session.resetUser.value).Some?
      && CheckCode(st.users[st.session.resetUser.value - 1], req.code, now) == Valid
    ensures r.1 == CodeAccepted ==> r.0 == st.(session := st.session.(resetVerified := true))
    // the password changes only once the session holds a confirmation
    ensures r.1 == PasswordChanged <==>
      && req.SubmitPassword? && st.session.resetUser.Some?
      && UserById(st.users, st.session.resetUser.value).Some? && st.session.resetVerified
    ensures r.1 == PasswordChanged ==>
      var id := st.session.resetUser.value;
      && r.0.users == st.users[id - 1 := ClearCode(st.users[id - 1]).(credential := req.password)]
      && r.0.session == st.session.(resetUser := None, resetVerified := false)
    ensures r.1 != CodeAccepted && r.1 != PasswordChanged ==> r.0 == st
  {
    match st.session.resetUser
    case None => (st, NoReset)
    case Some(id) =>
      match UserById(st.users, id)
      case None => (st, ResetUserMissing)
      case Some(u) =>
        match req
        case SubmitCode(code) =>
          (match CheckCode(u, code, now)
           case Valid => (st.(session := st.session.(resetVerified := true)), CodeAccepted)
           case Crash => (st, ResetCrashed)
           case _ => (st, CodeRejected))
        case SubmitPassword(password) =>
          if st.session.resetVerified then
            (State(st.users[id - 1 := ClearCode(u).(credential := password)],
                   st.session.(resetUser := None, resetVerified := false)),
             PasswordChanged)
          else (st, NotConfirmed)
  }

  // ---------------------------------------------------------------------
  // Properties

  /** Every transition keeps codes paired with expiries, so no code check
      ever reaches the comparison that would raise. */
  lemma TransitionsKeepCodesPaired(st: State, name: string, email: string, password: string,
                                   submitted: string, req: ResetRequest, k: nat, now: int)
    requires Invariant(st)
    ensures Invariant(Register(st, name, email, password, k, now).0)
    ensures Invariant(Login(st, name, password, k, now).0)
    ensures Invariant(Verify(st, submitted, now).0)
    ensures Invariant(ForgotPasswordAsWritten(st, email, k, now).0)
    ensures Invariant(ForgotPassword(st, email, k, now).0)
    ensures Invariant(ResetPassword(st, req, now).0)
    ensures Verify(st, submitted, now).1 != VerifyCrashed
    ensures ResetPassword(st, req, now).1 != ResetCrashed
  {
  }

  /** Verification and reset codes share the user's one code field: a reset
      request issued after registration invalidates the registration code. */
  lemma ResetOverwritesVerificationCode(st: State, name: string, email: string, password: string,
                                        k1: nat, k2: nat, now: int)
    requires Register(st, name, email, password, k1, now).1.Registered?
    requires k1 != k2
    ensures var s1 := Register(st, name, email, password, k1, now).0;
      var s2 := ForgotPassword(s1, email, k2, now).0;
      Verify(s2, Digits(k1), now).1 == InvalidCode
  {
    var s1 := Register(st, name, email, password, k1, now).0;
    var id := |st.users| + 1;
    assert s1.users[id - 1].email == email;
    var f := FindEmail(s1.users, email);
    assert f.Some?;
    assert f.value == id by {
      assert forall i :: 0 <= i < |st.users| ==> s1.users[i].email != email;
    }
    if Digits(k2) == Digits(k1) {
      DigitsInjective(k1, k2);
    }
  }

  /** In the corrected reset, a confirmation never carries over to a new
      target: a password submitted right after a reset request changes
      nothing. */
  lemma CorrectedResetNeedsTargetCode(st: State, email: string, password: string, k: nat, now: int)
    requires ForgotPassword(st, email, k, now).1.CodeSent?
    ensures var s1 := ForgotPassword(st, email, k, now).0;
      ResetPassword(s1, SubmitPassword(password), now) == (s1, NotConfirmed)
  {
  }

  /** As written, a confirmation obtained with account A's code survives a
      second reset request for account B, and B's password is then changed
      without B's code. The corrected request revokes the confirmation. */
  lemma ResetFlagCarriesOver(k1: nat, k2: nat, now: int)
    ensures var a := User("alice", "a@x", "pa", true, None, None);
      var b := User("bob", "b@x", "pb", true, None, None);
      var st0 := State([a, b], Session(None, None, None, false));
      var st1 := ForgotPasswordAsWritten(st0, "a@x", k1, now).0;
      var st2 := ResetPassword(st1, SubmitCode(Digits(k1)), now).0;
      var st3 := ForgotPasswordAsWritten(st2, "b@x", k2, now).0;
      var r := ResetPassword(st3, SubmitPassword("evil"), now);
      && r.1 == PasswordChanged && r.0.users[1].credential == "evil"
      && ResetPassword(ForgotPassword(st2, "b@x", k2, now).0, SubmitPassword("evil"), now).1 == NotConfirmed
  {
    var a := User("alice", "a@x", "pa", true, None, None);
    var b := User("bob", "b@x", "pb", true, None, None);
    var st0 := State([a, b], Session(None, None, None, false));
    assert "a@x" != "b@x" by { assert "a@x"[0] != "b@x"[0]; }
    assert FindEmail(st0.users, "a@x") == Some(1);
    var a1 := IssueCode(a, k1, now);
    var st1 := ForgotPasswordAsWritten(st0, "a@x", k1, now).0;
    assert st1 == State([a1, b], Session(None, None, Some(1), false));
    assert CheckCode(a1, Digits(k1), now) == Valid;
    var st2 := ResetPassword(st1, SubmitCode(Digits(k1)), now).0;
    assert st2 == State([a1, b], Session(None, None, Some(1), true));
    assert st2.users[0].email != "b@x" && st2.users[1].email == "b@x";
    var f := FindEmail(st2.users, "b@x");
    assert f.Some? && f.value != 1;
    assert f == Some(2);
    var st3 := ForgotPasswordAsWritten(st2, "b@x", k2, now).0;
    assert st3 == State([a1, IssueCode(b, k2, now)], Session(None, None, Some(2), true));
  }
}

=== FILE: common.dfy ===
/** Shared vocabulary of the model: optional values, results with a fault,
    0/1 labels, the record of the analyzer's four classifier slots, counting
    over label sequences, ASCII text helpers, and the rounding of a uniform
    random draw to a fixed number of decimals. */
module Common {

  /** A value that may be absent (Python `None`). */
  datatype Option<+T> = None | Some(value: T)

  /** The outcome of an operation that may raise. */
  datatype Result<+T, +E> = Success(value: T) | Failure(error: E)

  /** A 0/1 label, as returned by a classifier's `predict` or the ensemble. */
  type Bit = b: int | 0 <= b <= 1

  /** One value per classifier slot, in the order the analyzer iterates its
      model dictionary: svm, random_forest, adaboost, xgboost. */
  datatype Slots<T> = Slots(svm: T, forest: T, ada: T, xgb: T)

  /** `np.zeros(n)` as a label vector. */
  function Zeros(n: nat): (z: seq<Bit>)
    ensures |z| == n
    ensures forall i :: 0 <= i < n ==> z[i] == 0
  {
    seq(n, _ => 0)
  }

  /** Number of 1-labels, `int(np.sum(labels))`. */
  function Ones(s: seq<Bit>): (c: nat)
    ensures c <= |s|
  {
    if |s| == 0 then 0 else Ones(s[..|s| - 1]) + s[|s| - 1]
  }

  lemma {:induction false} OnesZeroIffAllZero(s: seq<Bit>)
    ensures Ones(s) == 0 <==> forall i :: 0 <= i < |s| ==> s[i] == 0
  {
    if |s| > 0 {
      OnesZeroIffAllZero(s[..|s| - 1]);
      assert forall i :: 0 <= i < |s| - 1 ==> s[..|s| - 1][i] == s[i];
    }
  }

  /** Raising one 0-label to 1 raises the count by exactly one. */
  lemma {:induction false} OnesRaise(s: seq<Bit>, i: nat)
    requires i < |s| && s[i] == 0
    ensures Ones(s[i := 1]) == Ones(s) + 1
  {
    var t := s[i := 1];
    if i < |s| - 1 {
      assert t[..|t| - 1] == s[..|s| - 1][i := 1];
      OnesRaise(s[..|s| - 1], i);
    } else {
      assert t[..|t| - 1] == s[..|s| - 1];
    }
  }

  /** Sum of a sequence of integers, `Series.sum()`. */
  function Sum(s: seq<int>): int
  {
    if |s| == 0 then 0 else Sum(s[..|s| - 1]) + s[|s| - 1]
  }

  function Min(a: int, b: int): int { if a <= b then a else b }

  function Max(a: int, b: int): int { if a >= b then a else b }

  /** No element occurs twice. */
  predicate Distinct<T(==)>(s: seq<T>)
  {
    forall i, j :: 0 <= i < j < |s| ==> s[i] != s[j]
  }

  predicate StrictlyIncreasing(s: seq<int>)
  {
    forall i, j :: 0 <= i < j < |s| ==> s[i] < s[j]
  }

  /** ASCII lower-casing of one character (`str.lower`, `toLowerCase`). */
  function LowerChar(c: char): char
  {
    if 'A' <= c <= 'Z' then (c as int + 32) as char else c
  }

  function Lower(s: string): (r: string)
    ensures |r| == |s|
    ensures forall i :: 0 <= i < |s| ==> r[i] == LowerChar(s[i])
  {
    seq(|s|, i requires 0 <= i < |s| => LowerChar(s[i]))
  }

  /** `round(random.uniform(lo', hi'), k)` scaled by 10^k, where `lo` and
      `hi` are the bounds already scaled by 10^k and `u` is the underlying
      draw in [0, 1]. The result always lies within the scaled bounds. */
  function RoundedUniform(lo: int, hi: int, u: real): (r: int)
    requires lo <= hi && 0.0 <= u <= 1.0
    ensures lo <= r <= hi
  {
    var spread := (hi - lo) as real * u;
    assert 0.0 <= spread <= (hi - lo) as real by {
      MulBounded((hi - lo) as real, u);
    }
    lo + (spread + 0.5).Floor
  }

  lemma MulBounded(d: real, u: real)
    requires 0.0 <= d && 0.0 <= u <= 1.0
    ensures 0.0 <= d * u <= d
  {
  }

  /** The faults the modelled code raises or answers with. */
  datatype Fault =
    | ScalerFitRaised        // StandardScaler.fit on a matrix with no rows
    | ScalerNotFitted        // transform on a scaler that was never fitted
    | TransformRaised        // StandardScaler.transform on a matrix with no rows
    | NonFiniteInput         // StandardScaler fit or transform on a matrix holding an infinity
    | RandIntEmptyRange      // np.random.randint(0, high) with high <= 0
    | KeyErrorRaised         // indexing a dict with a missing key
    | NoneArithmetic         // adding a NULL column value (None) to an int
}

=== FILE: ensemble.dfy ===
/** The four-model ensemble decision shared by the three analyze methods:
    per-model 0/1 predictions (a raising model contributes zeros), their
    mean per row, the fixed 0.3 threshold, and the anomaly index list. */
module Ensemble {
  import opened Common
  import opened Training

  /** What `model.predict(X_scaled)` produced: the labels, or `None` when the
      call raised. */
  type Prediction = Option<seq<Bit>>

  predicate WellShaped(p: Prediction, n: nat)
  {
    p.Some? ==> |p.value| == n
  }

  predicate AllWellShaped(p: Slots<Prediction>, n: nat)
  {
    WellShaped(p.svm, n) && WellShaped(p.forest, n) && WellShaped(p.ada, n) && WellShaped(p.xgb, n)
  }

  /** One slot's votes. An unfitted estimator's `predict` raises
      `NotFittedError`, so it contributes `np.zeros(n)` just like any other
      raising model. */
  function SlotVotes(fitted: bool, p: Prediction, n: nat): (v: seq<Bit>)
    requires WellShaped(p, n)
    ensures |v| == n
    ensures fitted && p.Some? ==> v == p.value
    // a raising or unfitted model votes 0 on every row
    ensures !(fitted && p.Some?) ==> forall i :: 0 <= i < n ==> v[i] == 0
  {
    if fitted && p.Some? then p.value else Zeros(n)
  }

  function Votes(r: Registry, p: Slots<Prediction>, n: nat): (v: Slots<seq<Bit>>)
    requires AllWellShaped(p, n)
    ensures |v.svm| == n && |v.forest| == n && |v.ada| == n && |v.xgb| == n
  {
    Slots(SlotVotes(r.fitted.svm, p.svm, n), SlotVotes(r.fitted.forest, p.forest, n),
          SlotVotes(r.fitted.ada, p.ada, n), SlotVotes(r.fitted.xgb, p.xgb, n))
  }

  /** The batch path wraps `predict` and `predict_proba` in one `try`: a
      raising `predict_proba` zeroes that model's predictions too. */
  function BatchPrediction(p: Prediction, probaRaised: bool): Prediction
  {
    if probaRaised then None else p
  }

  /** Number of models voting 1 for a row. */
  function VoteCount(a: Bit, b: Bit, c: Bit, d: Bit): int
  {
    a as int + b as int + c as int + d as int
  }

  /** The ensemble label of one row: 1 when the mean of the four 0/1 votes
      exceeds 0.3. */
  function RowLabel(a: Bit, b: Bit, c: Bit, d: Bit): (l: Bit)
    ensures l == 1 <==> VoteCount(a, b, c, d) >= 2
  {
    if VoteCount(a, b, c, d) as real / 4.0 > 0.3 then 1 else 0
  }

  /** `(np.mean(votes, axis=0) > 0.3).astype(int)`. */
  function Decide(v: Slots<seq<Bit>>, n: nat): (labels: seq<Bit>)
    requires |v.svm| == n && |v.forest| == n && |v.ada| == n && |v.xgb| == n
    ensures |labels| == n
    ensures forall i :: 0 <= i < n ==>
      (labels[i] == 1 <==> VoteCount(v.svm[i], v.forest[i], v.ada[i], v.xgb[i]) >= 2)
  {
    seq(n, i requires 0 <= i < n => RowLabel(v.svm[i], v.forest[i], v.ada[i], v.xgb[i]))
  }

  /** A single model can never flag a row on its own; any two agreeing models
      always do. */
  lemma TwoVotesDecide(a: Bit, b: Bit, c: Bit, d: Bit)
    ensures b == 0 && c == 0 && d == 0 ==> RowLabel(a, b, c, d) == 0
    ensures a == 1 && b == 1 ==> RowLabel(a, b, c, d) == 1
    ensures RowLabel(a, b, c, d) == 1 <==> VoteCount(a, b, c, d) as real / 4.0 > 0.3
  {
  }

  /** When every model raises (or none is fitted) no row is flagged. */
  lemma AllRaisingFlagsNothing(r: Registry, p: Slots<Prediction>, n: nat)
    requires AllWellShaped(p, n)
    requires p.svm.None? && p.forest.None? && p.ada.None? && p.xgb.None?
    ensures Ones(Decide(Votes(r, p, n), n)) == 0
  {
    var labels := Decide(Votes(r, p, n), n);
    assert forall i :: 0 <= i < n ==> labels[i] == 0;
    OnesZeroIffAllZero(labels);
  }

  /** `np.where(labels == 1)[0].tolist()`: the positions of the 1-labels in
      increasing order; there are exactly as many as `np.sum(labels)`. */
  method AnomalyIndices(labels: seq<Bit>) returns (idx: seq<nat>)
    ensures |idx| == Ones(labels)
    ensures forall k :: 0 <= k < |idx| ==> idx[k] < |labels| && labels[idx[k]] == 1
    ensures forall k, j :: 0 <= k < j < |idx| ==> idx[k] < idx[j]
    ensures forall i :: 0 <= i < |labels| ==> (labels[i] == 1 <==> i in idx)
  {
    idx := [];
    var i := 0;
    while i < |labels|
      invariant 0 <= i <= |labels|
      invariant |idx| == Ones(labels[..i])
      invariant forall k :: 0 <= k < |idx| ==> idx[k] < i && labels[idx[k]] == 1
      invariant forall k, j :: 0 <= k < j < |idx| ==> idx[k] < idx[j]
      invariant forall m :: 0 <= m < i ==> (labels[m] == 1 <==> m in idx)
    {
      assert labels[..i + 1][..i] == labels[..i];
      if labels[i] == 1 {
        idx := idx + [i];
      }
      i := i + 1;
    }
    assert labels[..|labels|] == labels;
  }
}

=== FILE: features.dfy ===
/** Feature shaping of the anomaly analyzer (`MLAnalyzer.prepare_features`).
    A data frame is abstracted to its row count and its ordered column
    descriptors; a feature matrix to its row count and, per column, the
    source that column was computed from. Float values are not modelled. */
module Features {
  import opened Common

  /** A frame column: its name and whether pandas gives it a numeric dtype. */
  datatype Column = Column(name: string, numeric: bool)

  datatype Frame = Frame(rows: nat, columns: seq<Column>)

  /** Where a feature column comes from. `PriceRollMean` is the 5-row rolling
      mean of `price` with missing values filled from `price`; `PriceRollStd`
      the 5-row rolling standard deviation filled with 0; likewise for `qty`.
      `Numeric(c)` is column `c` with missing values filled with 0, `Zero` a
      zero padding column and `Random` a column of standard-normal draws. */
  datatype Source =
    | Price | Qty | PriceRollMean | PriceRollStd | QtyRollMean | QtyRollStd
    | Numeric(name: string)
    | Zero
    | Random

  datatype FeatureMatrix = FeatureMatrix(rows: nat, sources: seq<Source>)

  /** Every feature matrix has exactly this many columns. */
  const Width: nat := 6

  /** The six signals derived from `price` and `qty`, in emission order. */
  const PriceQtySources: seq<Source> :=
    [Price, Qty, PriceRollMean, PriceRollStd, QtyRollMean, QtyRollStd]

  predicate HasColumn(f: Frame, name: string)
  {
    exists c :: c in f.columns && c.name == name
  }

  /** Every column called `name` has a numeric dtype. */
  predicate NumericColumn(f: Frame, name: string)
  {
    forall c :: c in f.columns && c.name == name ==> c.numeric
  }

  predicate HasPriceQty(f: Frame)
  {
    HasColumn(f, "price") && HasColumn(f, "qty")
  }

  /** The body of the `try` raises: with `price` and `qty` present, the cast
      to float and the rolling statistics fail on a non-numeric column. No
      other statement of the body can raise on a well-formed frame. */
  predicate ExtractionRaises(f: Frame)
  {
    HasPriceQty(f) && !(NumericColumn(f, "price") && NumericColumn(f, "qty"))
  }

  predicate IsOtherNumeric(c: Column)
  {
    c.numeric && c.name != "price" && c.name != "qty"
  }

  /** The generic loop over numeric columns: every numeric column other than
      `price` and `qty`, in frame order. */
  function OtherNumeric(cols: seq<Column>): (s: seq<Source>)
    ensures |s| <= |cols|
    ensures forall k :: 0 <= k < |s| ==>
      s[k].Numeric? && Column(s[k].name, true) in cols && IsOtherNumeric(Column(s[k].name, true))
  {
    if |cols| == 0 then []
    else if IsOtherNumeric(cols[0]) then [Numeric(cols[0].name)] + OtherNumeric(cols[1..])
    else OtherNumeric(cols[1..])
  }

  /** Every numeric column other than price/qty is collected by the loop. */
  lemma {:induction false} OtherNumericComplete(cols: seq<Column>, c: Column)
    requires c in cols && IsOtherNumeric(c)
    ensures Numeric(c.name) in OtherNumeric(cols)
  {
    if cols[0] != c {
      OtherNumericComplete(cols[1..], c);
    }
  }

  /** The columns collected before padding/truncation. */
  function Collected(f: Frame): seq<Source>
  {
    (if HasPriceQty(f) then PriceQtySources else []) + OtherNumeric(f.columns)
  }

  /** `prepare_features`. */
  function PrepareFeatures(f: Frame): (m: FeatureMatrix)
    ensures m.rows == f.rows && |m.sources| == Width
    // price and qty present and usable: the six derived signals, in order
    ensures HasPriceQty(f) && !ExtractionRaises(f) ==> m.sources == PriceQtySources
    // a column named price or qty is never taken as a generic numeric column
    ensures forall k :: 0 <= k < Width && m.sources[k].Numeric? ==>
      m.sources[k].name != "price" && m.sources[k].name != "qty" &&
      Column(m.sources[k].name, true) in f.columns
    // random columns appear exactly when extraction raised or nothing was collected
    ensures Random in m.sources <==> ExtractionRaises(f) || |Collected(f)| == 0
    ensures Random in m.sources ==> forall k :: 0 <= k < Width ==> m.sources[k] == Random
    // otherwise the first six collected columns, zero-padded
    ensures !ExtractionRaises(f) && |Collected(f)| > 0 ==>
      forall k :: 0 <= k < Width ==>
        m.sources[k] == (if k < |Collected(f)| then Collected(f)[k] else Zero)
  {
    if ExtractionRaises(f) then
      var noise := seq(Width, _ => Random);
      assert noise[0] == Random;
      FeatureMatrix(f.rows, noise)
    else
      var cols := Collected(f);
      assert forall k :: 0 <= k < |cols| ==> cols[k] != Random;
      var chosen :=
        if |cols| == 0 then seq(Width, _ => Random)
        else if |cols| < Width then cols + seq(Width - |cols|, _ => Zero)
        else cols[..Width];
      assert |cols| == 0 ==> chosen[0] == Random;
      assert |cols| > 0 ==> forall k :: 0 <= k < Width ==> chosen[k] != Random;
      FeatureMatrix(f.rows, chosen)
  }

  /** With no price/qty pair, the generic numeric columns fill the matrix:
      exactly the numeric columns other than price/qty, in frame order,
      up to six of them. */
  lemma GenericColumnsWithoutPriceQty(f: Frame, c: Column)
    requires !HasPriceQty(f) && c in f.columns && IsOtherNumeric(c)
    requires |OtherNumeric(f.columns)| <= Width
    ensures Numeric(c.name) in PrepareFeatures(f).sources
  {
    OtherNumericComplete(f.columns, c);
    var cols := Collected(f);
    assert cols == OtherNumeric(f.columns);
    var k :| 0 <= k < |cols| && cols[k] == Numeric(c.name);
    assert PrepareFeatures(f).sources[k] == Numeric(c.name);
  }

  /** A frame with only a price column (no qty) discards price entirely. */
  lemma LonePriceIsDiscarded(f: Frame)
    requires HasColumn(f, "price") && !HasColumn(f, "qty")
    ensures Numeric("price") !in PrepareFeatures(f).sources
    ensures Price !in PrepareFeatures(f).sources
  {
  }
}

=== FILE: helpers.dfy ===
/** Pure bookkeeping of `utils/helpers.py`: the upload extension check, the
    anomaly percentage, the severity colour class, and the arithmetic of the
    PDF report (severity buckets, the anomaly table, and the fallback to the
    simple report). Rendering, e-mail and time zones are not modelled. */
module Helpers {
  import opened Common

  /** `ALLOWED_EXTENSIONS` of the application configuration. */
  const AllowedExtensions: set<string> := {"csv"}

  /** Index of the last '.' in `s`, if any. */
  function LastDot(s: string): (r: Option<nat>)
    ensures r.Some? ==> r.value < |s| && s[r.value] == '.' && '.' !in s[r.value + 1..]
    ensures r.Some? ==> forall j :: r.value < j < |s| ==> s[j] != '.'
    ensures r.None? <==> '.' !in s
  {
    if |s| == 0 then None
    else if s[|s| - 1] == '.' then Some(|s| - 1)
    else
      var r := LastDot(s[..|s| - 1]);
      assert r.Some? ==> s[r.value + 1..] == s[..|s| - 1][r.value + 1..] + [s[|s| - 1]];
      assert '.' !in s[..|s| - 1] ==> '.' !in s by {
        if '.' in s {
          var k :| 0 <= k < |s| && s[k] == '.';
          assert k < |s| - 1 && s[..|s| - 1][k] == '.';
        }
      }
      r
  }

  /** A '.' with no '.' after it is the last one. */
  lemma LastDotIsLast(s: string, k: nat)
    requires k < |s| && s[k] == '.' && '.' !in s[k + 1..]
    ensures LastDot(s) == Some(k)
  {
    assert '.' in s;
  }

  /** Position `k` holds a '.' with no '.' after it, and the lower-cased
      text after it is an allowed extension. */
  predicate ExtensionAt(name: string, k: int, allowed: set<string>)
  {
    0 <= k < |name| && name[k] == '.' && '.' !in name[k + 1..] && Lower(name[k + 1..]) in allowed
  }

  /** `allowed_file`: the name contains a '.' and the lower-cased text after
      the last '.' is an allowed extension. */
  function AllowedFile(name: string, allowed: set<string>): (ok: bool)
    ensures ok <==> exists k :: ExtensionAt(name, k, allowed)
  {
    var d := LastDot(name);
    assert d.Some? && Lower(name[d.value + 1..]) in allowed ==> ExtensionAt(name, d.value, allowed);
    assert forall k :: ExtensionAt(name, k, allowed) ==> d == Some(k) by {
      forall k | ExtensionAt(name, k, allowed) ensures d == Some(k) {
        LastDotIsLast(name, k);
      }
    }
    d.Some? && Lower(name[d.value + 1..]) in allowed
  }

  /** The cases the extension check is meant to separate. */
  lemma AllowedFileExamples()
    ensures AllowedFile("a.CSV", AllowedExtensions)
    ensures AllowedFile("x.tar.csv", AllowedExtensions)
    ensures !AllowedFile("csv", AllowedExtensions)
    ensures !AllowedFile("a.csv.bak", AllowedExtensions)
  {
    var a := "a.CSV";
    assert a[2..] == "CSV" && '.' !in a[2..];
    LastDotIsLast(a, 1);
    assert Lower("CSV") == "csv";
    var x := "x.tar.csv";
    assert x[6..] == "csv" && '.' !in x[6..];
    LastDotIsLast(x, 5);
    assert Lower("csv") == "csv";
    assert "csv"[0] == 'c' && "csv"[1] == 's' && "csv"[2] == 'v';
    assert '.' !in "csv";
    var b := "a.csv.bak";
    assert b[6..] == "bak" && '.' !in b[6..];
    LastDotIsLast(b, 5);
    assert Lower("bak") == "bak";
  }

  /** `calculate_anomaly_percentage`. */
  function AnomalyPercentage(total: int, anomalies: int): (pct: real)
    ensures total == 0 ==> pct == 0.0
    ensures total != 0 ==> pct * total as real == anomalies as real * 100.0
    ensures 0 <= anomalies <= total ==> 0.0 <= pct <= 100.0
  {
    if total == 0 then 0.0
    else
      var p := anomalies as real / total as real * 100.0;
      assert 0 <= anomalies <= total ==> 0.0 <= p <= 100.0 by {
        if 0 <= anomalies <= total { RatioAtMostOne(anomalies, total); }
      }
      p
  }

  lemma RatioAtMostOne(a: int, t: int)
    requires 0 <= a <= t && t != 0
    ensures 0.0 <= a as real / t as real <= 1.0
  {
  }

  /** `get_severity_color`: a dictionary lookup with a default. */
  function SeverityColor(severity: string): (cls: string)
    ensures cls == "text-success" <==> severity == "low"
    ensures cls == "text-warning" <==> severity == "medium"
    ensures cls == "text-danger" <==> severity == "high" || severity == "critical"
    ensures cls == "text-secondary" <==> severity !in {"low", "medium", "high", "critical"}
  {
    var colors := map["low" := "text-success", "medium" := "text-warning",
                      "high" := "text-danger", "critical" := "text-danger"];
    if severity in colors then colors[severity] else "text-secondary"
  }

  /** Lookups are case-sensitive: "High" is not "high". */
  lemma SeverityColorCaseSensitive()
    ensures SeverityColor("High") == "text-secondary"
    ensures SeverityColor("CRITICAL") == "text-secondary"
  {
    assert "High" != "high" by { assert "High"[0] != "high"[0]; }
    assert "High" != "critical" && "High" != "low" && "High" != "medium";
    assert "CRITICAL" != "critical" by { assert "CRITICAL"[0] != "critical"[0]; }
  }

  /** The bar heights of the report's severity chart. */
  datatype Buckets = Buckets(low: int, medium: int, high: int, critical: int)

  /** Severity counts for `m` anomalies, computed in chart order. */
  function SeverityBuckets(m: nat): (b: Buckets)
    ensures b.low >= 1 && b.medium >= 1 && b.high >= 1 && b.critical >= 1
    ensures b.low + b.medium + b.high + b.critical == Max(m, b.low + b.medium + b.high + 1)
  {
    var low := Max(1, m / 4);
    var medium := Max(1, m / 3);
    var high := Max(1, m / 4);
    Buckets(low, medium, high, Max(1, m - (low + medium + high)))
  }

  /** The chart's bars add up to the anomaly count exactly when there are at
      least four anomalies; for one to three they overstate it (always 4). */
  lemma BucketsSumExactIffAtLeastFour(m: nat)
    requires m >= 1
    ensures var b := SeverityBuckets(m);
      (b.low + b.medium + b.high + b.critical == m <==> m >= 4)
    ensures m < 4 ==> SeverityBuckets(m) == Buckets(1, 1, 1, 1)
  {
    var b := SeverityBuckets(m);
    if m >= 4 {
      assert m / 4 >= 1 && m / 3 >= 1;
      assert 4 * (m / 4) <= m && 3 * (m / 3) <= m;
      assert b.low + b.medium + b.high + 1 <= m;
    }
  }

  datatype Severity = SevLow | SevMedium | SevHigh | SevCritical
  datatype Detector = Svm | RandomForest | AdaBoost | XGBoost
  datatype Risk = RiskLow | RiskMedium | RiskHigh

  /** A row of the "Top Anomaly Details" table. */
  datatype TableRow =
    | Detail(index: int, severity: Severity, confidence: nat, detector: Detector, risk: Risk)
    | Ellipsis
    | TotalRow(count: nat)

  const MaxTableRows: nat := 15

  const Severities: seq<Severity> := [SevLow, SevMedium, SevHigh, SevCritical]
  const Methods: seq<Detector> := [Svm, RandomForest, AdaBoost, XGBoost]
  const Risks: seq<Risk> := [RiskLow, RiskMedium, RiskHigh]

  function DetailRow(i: nat, idx: int): TableRow
  {
    Detail(idx, Severities[Min(i % 4, 3)], 85 + i % 15, Methods[i % 4], Risks[i % 3])
  }

  /** The anomaly table below its header row. */
  function AnomalyTable(indices: seq<int>): (rows: seq<TableRow>)
    ensures |rows| == Min(|indices|, MaxTableRows) + (if |indices| > MaxTableRows then 2 else 0)
    // the first 15 anomalies, in order, each on a detail row
    ensures forall i :: 0 <= i < Min(|indices|, MaxTableRows) ==>
      rows[i].Detail? && rows[i].index == indices[i]
    // severity and method cycle through their four values, risk through three
    ensures forall i :: 0 <= i < Min(|indices|, MaxTableRows) ==>
      rows[i].severity == Severities[i % 4] && rows[i].detector == Methods[i % 4] &&
      rows[i].risk == Risks[i % 3] && rows[i].confidence == 85 + i % 15
    // two summary rows iff the list was cut
    ensures |indices| > MaxTableRows ==>
      rows[MaxTableRows] == Ellipsis && rows[MaxTableRows + 1] == TotalRow(|indices|)
    ensures forall i :: 0 <= i < |rows| && !rows[i].Detail? ==> |indices| > MaxTableRows
  {
    var shown := if |indices| > MaxTableRows then indices[..MaxTableRows] else indices;
    var details := seq(|shown|, i requires 0 <= i < |shown| => DetailRow(i, shown[i]));
    if |indices| > MaxTableRows then details + [Ellipsis, TotalRow(|indices|)] else details
  }

  /** Which PDF `generate_report` ends up producing. */
  datatype Report = FullReport | SimpleReport | NoReport

  /** The "Anomaly Rate" cell of the executive summary: the division by the
      transaction total raises (`None`) on a total of 0. */
  function SummaryRate(total: int, anomalies: int): (rate: Option<real>)
    ensures rate.None? <==> total == 0
    ensures rate.Some? ==> rate.value * total as real == anomalies as real * 100.0
  {
    if total == 0 then None else Some(anomalies as real / total as real * 100.0)
  }

  /** `generate_report`: the executive summary computes the anomaly rate, so
      a total of 0 raises and the simple report is generated instead; the
      simple report, which divides by nothing, yields `None` only when its
      own rendering fails. `fullOk`/`simpleOk` stand for the rendering
      library succeeding. */
  function GenerateReport(total: int, anomalies: int, fullOk: bool, simpleOk: bool): (r: Report)
    ensures r == FullReport <==> total != 0 && fullOk
    ensures total == 0 ==> r != FullReport && (r == SimpleReport <==> simpleOk)
    ensures r == NoReport <==> (total == 0 || !fullOk) && !simpleOk
  {
    if SummaryRate(total, anomalies).Some? && fullOk then FullReport
    else if simpleOk then SimpleReport
    else NoReport
  }

  /** A full report shows the same anomaly rate as
      `calculate_anomaly_percentage`; on a zero total that helper answers 0
      where the report's own division raises, which is exactly when no full
      report is produced. */
  lemma FullReportRateIsPercentage(total: int, anomalies: int, fullOk: bool, simpleOk: bool)
    ensures GenerateReport(total, anomalies, fullOk, simpleOk) == FullReport ==>
      SummaryRate(total, anomalies) == Some(AnomalyPercentage(total, anomalies))
    ensures SummaryRate(total, anomalies).None? ==>
      GenerateReport(total, anomalies, fullOk, simpleOk) != FullReport && AnomalyPercentage(total, anomalies) == 0.0
  {
  }

  /** The rate's status mark is a warning iff more than a tenth of a positive
      total is anomalous. */
  lemma RateWarningIffAboveTenth(total: int, anomalies: int)
    requires total > 0
    ensures SummaryRate(total, anomalies).value > 10.0 <==> 10 * anomalies > total
  {
    var rate := SummaryRate(total, anomalies).value;
    ScaleByPositive(rate, 10.0, total as real);
    assert rate * total as real == (100 * anomalies) as real;
    assert 10.0 * total as real == (10 * total) as real;
  }

  /** Multiplying by a positive number keeps a strict order. */
  lemma ScaleByPositive(x: real, y: real, t: real)
    requires t > 0.0
    ensures x > y <==> x * t > y * t
  {
    assert x * t - y * t == (x - y) * t;
  }
}

=== FILE: liveui.dfy ===
/** Client state of the live-analysis page (`static/js/live-analysis.js`):
    the paginated trade table, the start/stop toggle of the analysis timer,
    and the split of the scatter chart into normal and anomalous points.
    The DOM is reduced to the values the code writes into it; the random
    point coordinates are not modelled. */
module LiveUi {
  import opened Common

  /** `transactionsPerPage`. */
  const PerPage: nat := 50

  /** `Math.ceil(length / transactionsPerPage)`. */
  function TotalPages(len: nat): (t: nat)
    ensures t * PerPage >= len && (t == 0 || (t - 1) * PerPage < len)
    ensures t == 0 <==> len == 0
  {
    (len + PerPage - 1) / PerPage
  }

  /** The page globals and the two buttons' `disabled` flags. */
  datatype Pager<T> = Pager(all: seq<T>, page: int, prevDisabled: bool, nextDisabled: bool)

  /** The page number stays between 1 and the last page (1 when empty). */
  predicate Valid<T>(p: Pager<T>)
  {
    1 <= p.page <= Max(1, TotalPages(|p.all|))
  }

  /** `allTransactions.slice(start, end)` for non-negative bounds. */
  function Slice<T>(s: seq<T>, start: nat, end: nat): (r: seq<T>)
    ensures |r| == if start < end && start < |s| then Min(end, |s|) - start else 0
    ensures start < end && start < |s| ==> r == s[start..Min(end, |s|)]
  {
    if start < end && start < |s| then s[start..Min(end, |s|)] else []
  }

  /** The rows `displayCurrentPage` renders. */
  function PageRows<T>(p: Pager<T>): (rows: seq<T>)
    requires Valid(p)
    ensures |rows| <= PerPage
    ensures |p.all| > 0 ==> 0 < |rows|
    ensures (p.page - 1) * PerPage + |rows| <= |p.all|
    ensures forall k :: 0 <= k < |rows| ==> rows[k] == p.all[(p.page - 1) * PerPage + k]
  {
    var start := (p.page - 1) * PerPage;
    var end := Min(start + PerPage, |p.all|);
    Slice(p.all, start, end)
  }

  /** Row `i` of the trade list is on page `i / 50 + 1`, at row `i % 50`:
      every trade is shown on exactly one page. */
  lemma TradeOnItsPage<T>(all: seq<T>, i: nat)
    requires i < |all|
    ensures var p := Pager(all, i / PerPage + 1, false, false);
      Valid(p) && |PageRows(p)| > i % PerPage && PageRows(p)[i % PerPage] == all[i]
  {
    var p := Pager(all, i / PerPage + 1, false, false);
    assert i / PerPage * PerPage + i % PerPage == i;
    assert (i / PerPage) * PerPage <= i;
    assert p.page <= TotalPages(|all|);
  }

  /** `displayCurrentPage`: an empty list shows the placeholder row and
      leaves the buttons as they were; otherwise the buttons are updated. */
  function Display<T>(p: Pager<T>): (q: Pager<T>)
    requires Valid(p)
    ensures q.all == p.all && q.page == p.page && Valid(q)
    ensures |p.all| == 0 ==> q == p
    ensures |p.all| > 0 ==>
      (q.prevDisabled <==> p.page <= 1) && (q.nextDisabled <==> p.page >= TotalPages(|p.all|))
  {
    if |p.all| == 0 then p
    else p.(prevDisabled := p.page <= 1, nextDisabled := p.page >= TotalPages(|p.all|))
  }

  /** `updateTransactionsTable`: a missing list is empty; new data always
      returns to page 1. */
  function Load<T>(p: Pager<T>, trades: Option<seq<T>>): (q: Pager<T>)
    ensures Valid(q) && q.page == 1
    ensures q.all == if trades.Some? then trades.value else []
    ensures |q.all| == 0 ==> q.prevDisabled == p.prevDisabled && q.nextDisabled == p.nextDisabled
    // a non-empty list starts with Prev disabled and Next enabled iff there is a second page
    ensures |q.all| > 0 ==> q.prevDisabled && (q.nextDisabled <==> TotalPages(|q.all|) <= 1)
  {
    var all := if trades.Some? then trades.value else [];
    Display(Pager(all, 1, p.prevDisabled, p.nextDisabled))
  }

  /** The Prev button. */
  function Prev<T>(p: Pager<T>): (q: Pager<T>)
    requires Valid(p)
    ensures Valid(q) && q.all == p.all
    ensures q.page == if p.page > 1 then p.page - 1 else p.page
    ensures p.page <= 1 ==> q == p
  {
    if p.page > 1 then Display(p.(page := p.page - 1)) else p
  }

  /** The Next button. */
  function Next<T>(p: Pager<T>): (q: Pager<T>)
    requires Valid(p)
    ensures Valid(q) && q.all == p.all
    ensures q.page == if p.page < TotalPages(|p.all|) then p.page + 1 else p.page
    ensures p.page >= TotalPages(|p.all|) ==> q == p
  {
    if p.page < TotalPages(|p.all|) then Display(p.(page := p.page + 1)) else p
  }

  /** A button that is enabled after a display always moves the page; a
      disabled one would not. */
  lemma EnabledButtonsMove<T>(p: Pager<T>)
    requires Valid(p) && |p.all| > 0
    ensures var q := Display(p);
      (!q.prevDisabled <==> Prev(q).page == q.page - 1) &&
      (!q.nextDisabled <==> Next(q).page == q.page + 1)
  {
  }

  /** The label values `updatePaginationInfo` writes: the shown range and
      "Page p of t". */
  datatype Info = Info(first: int, last: int, page: int, totalPages: nat)

  function PaginationInfo<T>(p: Pager<T>): (i: Info)
    requires Valid(p)
    ensures i.page == p.page && i.totalPages == TotalPages(|p.all|)
    // on a non-empty list the range is the rows shown, counted from 1
    ensures |p.all| > 0 ==> i.last - i.first + 1 == |PageRows(p)| && i.first == (p.page - 1) * PerPage + 1
    // an empty list reads "1-0" and "Page 1 of 0"
    ensures |p.all| == 0 ==> i == Info(1, 0, 1, 0)
  {
    Info((p.page - 1) * PerPage + 1, Min(p.page * PerPage, |p.all|), p.page, TotalPages(|p.all|))
  }

  // ---------------------------------------------------------------------
  // Start / stop

  /** `isAnalyzing`, the handle in `analysisInterval`, and the number of
      analyses requested by `Start` itself (the timer's periodic requests
      are not counted). */
  datatype Controller = Controller(analyzing: bool, interval: Option<nat>, requests: nat)

  /** The timer runs exactly while analysing. */
  predicate ControllerValid(c: Controller)
  {
    c.analyzing <==> c.interval.Some?
  }

  /** `startLiveAnalysis`: `handle` is what `setInterval` returns, which
      browsers make positive (a 0 handle would read as "no timer" to the
      `if (analysisInterval)` test of `stopLiveAnalysis`); the first analysis
      is requested at once. */
  function Start(c: Controller, handle: nat): (d: Controller)
    requires ControllerValid(c) && handle > 0
    ensures ControllerValid(d) && d.analyzing
    ensures c.analyzing ==> d == c
    ensures !c.analyzing ==> d.interval == Some(handle) && d.requests == c.requests + 1
  {
    if c.analyzing then c else Controller(true, Some(handle), c.requests + 1)
  }

  /** `stopLiveAnalysis`. */
  function Stop(c: Controller): (d: Controller)
    requires ControllerValid(c)
    ensures ControllerValid(d) && !d.analyzing && d.interval.None?
    ensures !c.analyzing ==> d == c
    ensures d.requests == c.requests
  {
    if !c.analyzing then c else c.(analyzing := false, interval := None)
  }

  /** Starting twice starts one timer; stopping after a start returns to the
      stopped state with one more request made. */
  lemma StartStopToggle(c: Controller, h1: nat, h2: nat)
    requires ControllerValid(c) && !c.analyzing && h1 > 0 && h2 > 0
    ensures Start(Start(c, h1), h2) == Start(c, h1)
    ensures Stop(Start(c, h1)) == c.(requests := c.requests + 1)
  {
  }

  // ---------------------------------------------------------------------
  // Anomaly chart

  /** `updateAnomalyChart`: point `i` for i < total goes to the anomaly series
      when `anomaly_indices` contains it, else to the normal series. Points
      are identified by their loop index. */
  method ChartSeries(total: int, indices: Option<seq<int>>) returns (normal: seq<int>, anomalous: seq<int>)
    ensures |normal| + |anomalous| == Max(0, total)
    ensures forall i :: i in anomalous <==> 0 <= i < total && indices.Some? && i in indices.value
    ensures forall i :: i in normal <==> 0 <= i < total && !(indices.Some? && i in indices.value)
    ensures StrictlyIncreasing(normal) && StrictlyIncreasing(anomalous)
  {
    normal, anomalous := [], [];
    var i := 0;
    while i < total
      invariant 0 <= i <= Max(0, total)
      invariant |normal| + |anomalous| == i
      invariant forall j :: j in anomalous <==> 0 <= j < i && indices.Some? && j in indices.value
      invariant forall j :: j in normal <==> 0 <= j < i && !(indices.Some? && j in indices.value)
      invariant forall k :: 0 <= k < |normal| ==> normal[k] < i
      invariant forall k :: 0 <= k < |anomalous| ==> anomalous[k] < i
      invariant StrictlyIncreasing(normal) && StrictlyIncreasing(anomalous)
    {
      if indices.Some? && i in indices.value {
        anomalous := anomalous + [i];
      } else {
        normal := normal + [i];
      }
      i := i + 1;
    }
  }
}

=== FILE: mainroutes.dfy ===
/** Bookkeeping of the dashboard blueprint (`main/routes.py`): the upload
    pipeline's accept/reject decisions, the per-day aggregation behind the
    dashboard chart and the activity endpoint, the guard of the anomaly
    e-mail endpoint, and the uniqueness check of the profile update.
    Requests, templates, the database session and the file system are
    modelled as plain parameters and results. */
module MainRoutes {
  import opened Common
  import opened Records
  import Helpers

  // ---------------------------------------------------------------------
  // Upload

  /** The header check of `upload`: the first rows of the saved file name
      both `price` and `qty`, or both `close` and `volume`. */
  predicate HeaderAccepted(columns: seq<string>)
  {
    ("price" in columns && "qty" in columns) || ("close" in columns && "volume" in columns)
  }

  datatype UploadError = NoFileSelected | InvalidType | InvalidCsv | InvalidHeaders | AnalysisError

  /** What `analyze_csv` reported for the file. */
  datatype Summary = Summary(total: int, anomalies: int, accuracy: real)

  /** The effect of one upload request: the stored analysis or the flashed
      error, whether the saved file is still on disk, whether the analyzer
      ran, and whether an anomaly alert was created. */
  datatype UploadEffect = UploadEffect(
    stored: Result<Analysis, UploadError>,
    fileKept: bool,
    analyzerCalled: bool,
    alert: bool)

  /** A request reaches the analyzer only with a named, allowed file whose
      head parses and names an accepted header pair. */
  predicate ReachesAnalyzer(file: Option<string>, header: Option<seq<string>>)
  {
    && file.Some? && file.value != ""
    && Helpers.AllowedFile(file.value, Helpers.AllowedExtensions)
    && header.Some? && HeaderAccepted(header.value)
  }

  /** `upload` (POST). `file` is the uploaded file name (`None` when the
      request has no file part), `header` the columns `read_csv(nrows=5)`
      found (`None` when parsing raised) and `summary` what `analyze_csv`
      returned (`None` when it raised). */
  function UploadFile(user: nat, nextId: nat, now: int, file: Option<string>,
                      header: Option<seq<string>>, summary: Option<Summary>): (u: UploadEffect)
    ensures u.analyzerCalled <==> ReachesAnalyzer(file, header)
    // a saved file is removed on a bad CSV or header and kept once analysed
    ensures u.fileKept <==> u.analyzerCalled
    ensures u.stored.Success? <==> u.analyzerCalled && summary.Some?
    ensures u.stored.Success? ==>
      u.stored.value == Analysis(nextId, user, "upload", summary.value.total,
                                 Some(summary.value.anomalies), Some(summary.value.accuracy), now)
    ensures u.alert <==> u.stored.Success? && summary.value.anomalies > 0
    // the error flashed names the first check that failed
    ensures (file.None? || file.value == "") ==> u.stored == Failure(NoFileSelected)
    ensures file.Some? && file.value != "" && !Helpers.AllowedFile(file.value, Helpers.AllowedExtensions) ==>
      u.stored == Failure(InvalidType)
    ensures file.Some? && file.value != "" && Helpers.AllowedFile(file.value, Helpers.AllowedExtensions) ==>
      (header.None? ==> u.stored == Failure(InvalidCsv)) &&
      (header.Some? && !HeaderAccepted(header.value) ==> u.stored == Failure(InvalidHeaders))
    ensures u.analyzerCalled && summary.None? ==> u.stored == Failure(AnalysisError)
  {
    if file.None? || file.value == "" then UploadEffect(Failure(NoFileSelected), false, false, false)
    else if !Helpers.AllowedFile(file.value, Helpers.AllowedExtensions) then
      UploadEffect(Failure(InvalidType), false, false, false)
    else if header.None? then UploadEffect(Failure(InvalidCsv), false, false, false)
    else if !HeaderAccepted(header.value) then UploadEffect(Failure(InvalidHeaders), false, false, false)
    else if summary.None? then UploadEffect(Failure(AnalysisError), true, true, false)
    else
      var s := summary.value;
      var a := Analysis(nextId, user, "upload", s.total, Some(s.anomalies), Some(s.accuracy), now);
      UploadEffect(Success(a), true, true, s.anomalies > 0)
  }

  /** Column order and extra columns do not matter to the header check. */
  lemma HeaderAcceptedIsAboutMembership(columns: seq<string>, other: seq<string>)
    requires forall c :: c in columns ==> c in other
    requires HeaderAccepted(columns)
    ensures HeaderAccepted(other)
  {
  }

  // ---------------------------------------------------------------------
  // Per-day aggregation

  /** The figures of one chart day: number of analyses and the sum of their
      anomaly counts. */
  datatype DayStats = DayStats(analyses: int, anomalies: int)

  const NoActivity: DayStats := DayStats(0, 0)

  /** Both charts cover this many calendar days. */
  const WindowDays: nat := 30

  /** `Analysis.query.filter(user_id == user, created_at >= now - 30 days)`. */
  function Recent(analyses: seq<Analysis>, user: nat, now: int): (w: seq<Analysis>)
    ensures forall a :: a in w <==>
      a in analyses && a.user == user && a.created >= now - WindowDays * SecondsPerDay
  {
    if |analyses| == 0 then []
    else
      var a := analyses[|analyses| - 1];
      assert analyses == analyses[..|analyses| - 1] + [a];
      Recent(analyses[..|analyses| - 1], user, now)
        + (if a.user == user && a.created >= now - WindowDays * SecondsPerDay then [a] else [])
  }

  /** The calendar day of an analysis, `created_at.strftime('%Y-%m-%d')`. */
  function Day(a: Analysis): int
  {
    DayOf(a.created)
  }

  /** An anomaly count with NULL read as 0. */
  function AnomaliesOrZero(a: Analysis): int
  {
    if a.anomalies.Some? then a.anomalies.value else 0
  }

  /** Reference figures: how many analyses of `w` fall on day `d`, and the
      sum of their anomaly counts. */
  function CountOn(w: seq<Analysis>, d: int): nat
  {
    if |w| == 0 then 0
    else CountOn(w[..|w| - 1], d) + (if Day(w[|w| - 1]) == d then 1 else 0)
  }

  function SumOn(w: seq<Analysis>, d: int): int
  {
    if |w| == 0 then 0
    else SumOn(w[..|w| - 1], d) + (if Day(w[|w| - 1]) == d then AnomaliesOrZero(w[|w| - 1]) else 0)
  }

  function StatsOn(w: seq<Analysis>, d: int): DayStats
  {
    DayStats(CountOn(w, d), SumOn(w, d))
  }

  /** The days on which `w` has analyses. */
  function DaysWith(w: seq<Analysis>): set<int>
  {
    set a | a in w :: Day(a)
  }

  /** A day without analyses has zero figures. */
  lemma {:induction false} NoAnalysesNoStats(w: seq<Analysis>, d: int)
    requires d !in DaysWith(w)
    ensures StatsOn(w, d) == NoActivity
  {
    if |w| > 0 {
      assert w[|w| - 1] in w;
      assert DaysWith(w[..|w| - 1]) <= DaysWith(w);
      NoAnalysesNoStats(w[..|w| - 1], d);
    }
  }

  /** A day shift by whole days moves the calendar day by as many days. */
  lemma DayShift(t: int, k: int)
    ensures DayOf(t - k * SecondsPerDay) == DayOf(t) - k
  {
    var q := t / SecondsPerDay;
    var r := t % SecondsPerDay;
    assert t - k * SecondsPerDay == (q - k) * SecondsPerDay + r;
  }

  /** Day `d` is one of the 30 days ending on the day of `now`. */
  predicate OnChart(now: int, d: int)
  {
    DayOf(now) - (WindowDays - 1) <= d <= DayOf(now)
  }

  /** `date_list`: the days `now - i days` for i = 29 down to 0, oldest first. */
  function DateList(now: int): (days: seq<int>)
    ensures |days| == WindowDays
    ensures forall i :: 0 <= i < WindowDays ==> days[i] == DayOf(now) - (WindowDays - 1 - i)
  {
    var days := seq(WindowDays, i requires 0 <= i < WindowDays =>
      DayOf(now - (WindowDays - 1 - i) * SecondsPerDay));
    forall i | 0 <= i < WindowDays
      ensures days[i] == DayOf(now) - (WindowDays - 1 - i)
    {
      DayShift(now, WindowDays - 1 - i);
    }
    days
  }

  /** The date list holds exactly the 30 chart days. */
  lemma DateListIsChartDays(now: int)
    ensures forall d :: d in DateList(now) <==> OnChart(now, d)
  {
    var days := DateList(now);
    forall d | OnChart(now, d)
      ensures d in days
    {
      assert days[d - DayOf(now) + WindowDays - 1] == d;
    }
  }

  /** The dashboard's loop: a day's entry is created by its first analysis
      and then incremented. */
  function Tally(w: seq<Analysis>): (chart: map<int, DayStats>)
    ensures chart.Keys == DaysWith(w)
    ensures forall d :: d in chart ==> chart[d] == StatsOn(w, d)
  {
    if |w| == 0 then map[]
    else
      var prior := Tally(w[..|w| - 1]);
      var a := w[|w| - 1];
      var s := if Day(a) in prior then prior[Day(a)] else NoActivity;
      assert Day(a) !in prior ==> s == StatsOn(w[..|w| - 1], Day(a)) by {
        if Day(a) !in prior { NoAnalysesNoStats(w[..|w| - 1], Day(a)); }
      }
      assert w == w[..|w| - 1] + [a];
      assert DaysWith(w) == DaysWith(w[..|w| - 1]) + {Day(a)};
      prior[Day(a) := DayStats(s.analyses + 1, s.anomalies + AnomaliesOrZero(a))]
  }

  /** The dashboard's fill-in: every day of the date list missing from
      `chart` gets zero figures. */
  function FillDays(chart: map<int, DayStats>, now: int): (r: map<int, DayStats>)
    ensures forall d :: d in r <==> d in chart || OnChart(now, d)
    ensures forall d :: d in chart ==> r[d] == chart[d]
    ensures forall d :: d in r && d !in chart ==> r[d] == NoActivity
  {
    DateListIsChartDays(now);
    chart + map d | d in DateList(now) && d !in chart :: NoActivity
  }

  /** `dashboard`'s chart data. Adding a NULL anomaly count raises, so the
      page fails when a windowed analysis has none. */
  function DashboardChart(analyses: seq<Analysis>, user: nat, now: int): (r: Result<map<int, DayStats>, Fault>)
    ensures r.Failure? <==> exists a :: a in Recent(analyses, user, now) && a.anomalies.None?
    ensures r.Failure? ==> r.error == NoneArithmetic
    // all 30 days plus every day with a windowed analysis
    ensures r.Success? ==> forall d :: d in r.value <==>
      d in DaysWith(Recent(analyses, user, now)) || OnChart(now, d)
    ensures r.Success? ==> forall d :: d in r.value ==>
      r.value[d] == StatsOn(Recent(analyses, user, now), d)
  {
    var w := Recent(analyses, user, now);
    if exists a :: a in w && a.anomalies.None? then Failure(NoneArithmetic)
    else
      var chart := Tally(w);
      var seeded := if |chart| == 0 then map[DayOf(now) := NoActivity] else chart;
      assert forall d :: d in seeded && d !in chart ==> OnChart(now, d);
      var filled := FillDays(seeded, now);
      forall d | d in filled
        ensures filled[d] == StatsOn(w, d)
      {
        if d !in chart { NoAnalysesNoStats(w, d); }
      }
      Success(filled)
  }

  /** Per-kind counts of one stacked bar. */
  datatype KindCounts = KindCounts(upload: int, live: int, testnet: int)

  const NoKinds: KindCounts := KindCounts(0, 0, 0)

  /** `analysis_types`: only these kinds are counted in the stacked bars. */
  const AnalysisKinds: seq<string> := ["upload", "live", "testnet"]

  function Bump(k: KindCounts, kind: string): KindCounts
  {
    if kind == "upload" then k.(upload := k.upload + 1)
    else if kind == "live" then k.(live := k.live + 1)
    else if kind == "testnet" then k.(testnet := k.testnet + 1)
    else k
  }

  /** Reference count of the analyses of `w` of one kind on day `d`. */
  function KindOn(w: seq<Analysis>, d: int, kind: string): nat
  {
    if |w| == 0 then 0
    else KindOn(w[..|w| - 1], d, kind) + (if Day(w[|w| - 1]) == d && w[|w| - 1].kind == kind then 1 else 0)
  }

  function KindsOn(w: seq<Analysis>, d: int): KindCounts
  {
    KindCounts(KindOn(w, d, "upload"), KindOn(w, d, "live"), KindOn(w, d, "testnet"))
  }

  /** The stacked bars never exceed the line chart: they count three kinds,
      the line chart every analysis. */
  lemma {:induction false} StackedAtMostChart(w: seq<Analysis>, d: int)
    ensures var k := KindsOn(w, d); k.upload + k.live + k.testnet <= CountOn(w, d)
  {
    if |w| > 0 {
      StackedAtMostChart(w[..|w| - 1], d);
    }
  }

  /** The two maps `user_analysis_activity` returns. */
  datatype Activity = Activity(chart: map<int, DayStats>, stacked: map<int, KindCounts>)

  /** Both maps pre-filled with zeros for the 30 days of the date list. */
  function Prefilled(now: int): (act: Activity)
    ensures forall d :: d in act.chart <==> OnChart(now, d)
    ensures forall d :: d in act.stacked <==> OnChart(now, d)
    ensures forall d :: d in act.chart ==> act.chart[d] == NoActivity
    ensures forall d :: d in act.stacked ==> act.stacked[d] == NoKinds
  {
    DateListIsChartDays(now);
    Activity(map d | d in DateList(now) :: NoActivity, map d | d in DateList(now) :: NoKinds)
  }

  /** `act` holds exactly the reference figures of `w` on the 30 days and
      nothing else. */
  ghost predicate Reports(act: Activity, w: seq<Analysis>, now: int)
  {
    && (forall d :: d in act.chart <==> OnChart(now, d))
    && (forall d :: d in act.stacked <==> OnChart(now, d))
    && (forall d :: d in act.chart ==> act.chart[d] == StatsOn(w, d))
    && (forall d :: d in act.stacked ==> act.stacked[d] == KindsOn(w, d))
  }

  /** One pass of the endpoint's loop body on a day already in both maps. */
  function Record(act: Activity, a: Analysis): Activity
    requires Day(a) in act.chart && Day(a) in act.stacked && a.anomalies.Some?
  {
    var s := act.chart[Day(a)];
    Activity(act.chart[Day(a) := DayStats(s.analyses + 1, s.anomalies + a.anomalies.value)],
             act.stacked[Day(a) := Bump(act.stacked[Day(a)], a.kind)])
  }

  lemma PrefilledReportsNothing(now: int)
    ensures Reports(Prefilled(now), [], now)
  {
  }

  /** Recording the last analysis of `w` on top of the figures of the others
      gives the figures of `w`. */
  lemma RecordStep(act: Activity, w: seq<Analysis>, now: int)
    requires |w| > 0 && Reports(act, w[..|w| - 1], now)
    requires OnChart(now, Day(w[|w| - 1])) && w[|w| - 1].anomalies.Some?
    ensures Reports(Record(act, w[|w| - 1]), w, now)
  {
  }

  /** Analyses dated outside the 30 days leave the figures unchanged. */
  lemma SkipStep(act: Activity, w: seq<Analysis>, now: int)
    requires |w| > 0 && Reports(act, w[..|w| - 1], now)
    requires !OnChart(now, Day(w[|w| - 1]))
    ensures Reports(act, w, now)
  {
  }

  /** `user_analysis_activity` as written: the day's entry is indexed without
      being created, so an analysis dated outside the 30 pre-filled days
      raises `KeyError`. */
  function ActivityAsWritten(w: seq<Analysis>, now: int): (r: Result<Activity, Fault>)
    ensures r.Success? <==> forall a :: a in w ==> OnChart(now, Day(a)) && a.anomalies.Some?
    ensures r.Success? ==> Reports(r.value, w, now)
    ensures r.Failure? && r.error == KeyErrorRaised ==> exists a :: a in w && !OnChart(now, Day(a))
  {
    if |w| == 0 then
      PrefilledReportsNothing(now);
      Success(Prefilled(now))
    else
      var a := w[|w| - 1];
      assert w == w[..|w| - 1] + [a];
      match ActivityAsWritten(w[..|w| - 1], now)
      case Failure(e) => Failure(e)
      case Success(act) =>
        if Day(a) !in act.chart then Failure(KeyErrorRaised)
        else if a.anomalies.None? then Failure(NoneArithmetic)
        else
          RecordStep(act, w, now);
          Success(Record(act, a))
  }

  /** The evidently intended endpoint: analyses dated outside the 30 days
      shown are skipped rather than indexed. */
  function ActivityCorrected(w: seq<Analysis>, now: int): (r: Result<Activity, Fault>)
    ensures r.Success? <==> forall a :: a in w && OnChart(now, Day(a)) ==> a.anomalies.Some?
    ensures r.Failure? ==> r.error == NoneArithmetic
    ensures r.Success? ==> Reports(r.value, w, now)
  {
    if |w| == 0 then
      PrefilledReportsNothing(now);
      Success(Prefilled(now))
    else
      var a := w[|w| - 1];
      assert w == w[..|w| - 1] + [a];
      match ActivityCorrected(w[..|w| - 1], now)
      case Failure(e) => Failure(e)
      case Success(act) =>
        if Day(a) !in act.chart then
          SkipStep(act, w, now);
          Success(act)
        else if a.anomalies.None? then Failure(NoneArithmetic)
        else
          RecordStep(act, w, now);
          Success(Record(act, a))
  }

  /** Two activity records reporting the same analyses are the same. */
  lemma ReportsDetermines(x: Activity, y: Activity, w: seq<Analysis>, now: int)
    requires Reports(x, w, now) && Reports(y, w, now)
    ensures x == y
  {
    assert forall d :: d in x.chart.Keys <==> d in y.chart.Keys;
    assert x.chart.Keys == y.chart.Keys;
    assert forall d :: d in x.chart ==> x.chart[d] == y.chart[d];
    assert x.chart == y.chart;
    assert forall d :: d in x.stacked.Keys <==> d in y.stacked.Keys;
    assert x.stacked.Keys == y.stacked.Keys;
    assert forall d :: d in x.stacked ==> x.stacked[d] == y.stacked[d];
    assert x.stacked == y.stacked;
  }

  /** Wherever the endpoint as written answers, the corrected one gives the
      same answer. */
  lemma AsWrittenAgreesWhenItAnswers(w: seq<Analysis>, now: int)
    requires ActivityAsWritten(w, now).Success?
    ensures ActivityCorrected(w, now) == ActivityAsWritten(w, now)
  {
    ReportsDetermines(ActivityCorrected(w, now).value, ActivityAsWritten(w, now).value, w, now);
  }

  /** An analysis inside the query's window but dated 30 days before the
      request (one day before the first pre-filled day; this is every
      windowed timestamp earlier than the start of that day) makes the
      endpoint as written raise, while the dashboard charts it and the
      corrected endpoint skips it. */
  lemma ActivityWindowEdgeRaises(a: Analysis, now: int)
    requires now - WindowDays * SecondsPerDay <= a.created && DayOf(a.created) == DayOf(now) - WindowDays
    requires a.anomalies.Some?
    ensures Recent([a], a.user, now) == [a]
    ensures ActivityAsWritten([a], now) == Failure(KeyErrorRaised)
    ensures ActivityCorrected([a], now).Success?
    ensures DashboardChart([a], a.user, now).Success?
    ensures Day(a) in DashboardChart([a], a.user, now).value
  {
    assert !OnChart(now, Day(a));
    assert [a][..|[a]| - 1] == [];
    assert Day(a) in DaysWith([a]);
  }

  /** On the 30 days both charts agree: the dashboard and the corrected
      activity endpoint report the same figures. */
  lemma DashboardAgreesWithActivity(analyses: seq<Analysis>, user: nat, now: int, d: int)
    requires DashboardChart(analyses, user, now).Success?
    requires OnChart(now, d)
    ensures ActivityCorrected(Recent(analyses, user, now), now).Success?
    ensures DashboardChart(analyses, user, now).value[d] ==
            ActivityCorrected(Recent(analyses, user, now), now).value.chart[d]
  {
    var w := Recent(analyses, user, now);
    assert forall a :: a in w ==> a.anomalies.Some?;
    var act := ActivityCorrected(w, now);
    assert act.Success?;
  }

  // ---------------------------------------------------------------------
  // Anomaly e-mail

  /** The `anomaly_count` field of a JSON object body: absent or `null`, or
      a JSON boolean, integer, float, string, array (by its length) or
      object (by its number of keys). */
  datatype CountField =
    | Absent
    | BoolCount(b: bool)
    | IntCount(n: int)
    | RealCount(x: real)
    | TextCount(s: string)
    | ListCount(len: nat)
    | ObjectCount(size: nat)

  /** The parsed request body: `request.get_json()` gives a dict, or a
      value without `.get` (JSON `null`, an array, a string, a number). */
  datatype EmailBody = Object(count: CountField) | NotAnObject

  /** Python truthiness of the field. */
  predicate Truthy(c: CountField)
  {
    match c
    case Absent => false
    case BoolCount(b) => b
    case IntCount(n) => n != 0
    case RealCount(x) => x != 0.0
    case TextCount(s) => s != ""
    case ListCount(len) => len != 0
    case ObjectCount(size) => size != 0
  }

  datatype EmailReply = EmailReply(status: int, sent: bool)

  /** `send_anomaly_email`: a body without `.get` raises `AttributeError`
      (answered 500); a falsy count answers 400; otherwise the mail is sent
      and the route answers 200. */
  function SendAnomalyEmail(body: EmailBody): (r: EmailReply)
    ensures r.status == 500 <==> body == NotAnObject
    ensures r.status == 400 <==>
      body.Object? && body.count in {Absent, BoolCount(false), IntCount(0), RealCount(0.0), TextCount(""), ListCount(0), ObjectCount(0)}
    ensures r.sent <==> r.status == 200
    ensures r.status in {200, 400, 500}
  {
    match body
    case NotAnObject => EmailReply(500, false)
    case Object(count) => if !Truthy(count) then EmailReply(400, false) else EmailReply(200, true)
  }

  // ---------------------------------------------------------------------
  // Profile update

  /** ASCII whitespace as `str.strip` sees it. */
  predicate IsSpace(c: char)
  {
    (9 <= c as int <= 13) || (28 <= c as int <= 32)
  }

  /** Length of the whitespace prefix of `s`. */
  function LeadingSpaces(s: string): (n: nat)
    ensures n <= |s|
    ensures forall k :: 0 <= k < n ==> IsSpace(s[k])
    ensures n < |s| ==> !IsSpace(s[n])
  {
    if |s| == 0 || !IsSpace(s[0]) then 0 else 1 + LeadingSpaces(s[1..])
  }

  /** Length of the whitespace suffix of `s`. */
  function TrailingSpaces(s: string): (n: nat)
    ensures n <= |s|
    ensures forall k :: |s| - n <= k < |s| ==> IsSpace(s[k])
    ensures n < |s| ==> !IsSpace(s[|s| - n - 1])
  {
    if |s| == 0 || !IsSpace(s[|s| - 1]) then 0 else 1 + TrailingSpaces(s[..|s| - 1])
  }

  /** `str.strip()`. */
  function Strip(s: string): (r: string)
    ensures |r| > 0 ==> !IsSpace(r[0]) && !IsSpace(r[|r| - 1])
    // only whitespace is removed, and only at the ends
    ensures LeadingSpaces(s) + |r| <= |s| && r == s[LeadingSpaces(s)..LeadingSpaces(s) + |r|]
    ensures forall k :: LeadingSpaces(s) + |r| <= k < |s| ==> IsSpace(s[k])
  {
    var i := LeadingSpaces(s);
    if i == |s| then ""
    else
      var t := TrailingSpaces(s);
      assert t < |s| - i by {
        assert !IsSpace(s[i]);
      }
      s[i..|s| - t]
  }

  /** Stripping twice strips nothing more. */
  lemma StripIdempotent(s: string)
    ensures Strip(Strip(s)) == Strip(s)
  {
    var r := Strip(s);
    if |r| > 0 {
      assert LeadingSpaces(r) == 0;
      assert TrailingSpaces(r) == 0;
      assert r[0..|r|] == r;
    }
  }

  datatype ProfileOutcome = UsernameTaken | EmailTaken | ProfileUpdated

  datatype ProfileUpdate = ProfileUpdate(users: seq<User>, outcome: ProfileOutcome)

  /** Some user other than user `me` has `f` as their username. */
  predicate UsernameHeldByOther(users: seq<User>, me: nat, name: string)
  {
    exists k :: 0 <= k < |users| && k != me - 1 && users[k].username == name
  }

  predicate EmailHeldByOther(users: seq<User>, me: nat, email: string)
  {
    exists k :: 0 <= k < |users| && k != me - 1 && users[k].email == email
  }

  /** The profile-update branch of `settings` for user `me`, with the form's
      raw username and e-mail. */
  function UpdateProfile(users: seq<User>, me: nat, rawName: string, rawEmail: string): (p: ProfileUpdate)
    requires 1 <= me <= |users|
    ensures p.outcome == UsernameTaken <==> UsernameHeldByOther(users, me, Strip(rawName))
    ensures p.outcome == EmailTaken <==>
      !UsernameHeldByOther(users, me, Strip(rawName)) && EmailHeldByOther(users, me, Lower(Strip(rawEmail)))
    ensures p.outcome != ProfileUpdated ==> p.users == users
    ensures p.outcome == ProfileUpdated ==>
      |p.users| == |users| &&
      p.users[me - 1] == users[me - 1].(username := Strip(rawName), email := Lower(Strip(rawEmail))) &&
      forall k :: 0 <= k < |users| && k != me - 1 ==> p.users[k] == users[k]
  {
    var name := Strip(rawName);
    var email := Lower(Strip(rawEmail));
    if UsernameHeldByOther(users, me, name) then ProfileUpdate(users, UsernameTaken)
    else if EmailHeldByOther(users, me, email) then ProfileUpdate(users, EmailTaken)
    else ProfileUpdate(users[me - 1 := users[me - 1].(username := name, email := email)], ProfileUpdated)
  }

  /** A profile update never makes two accounts share a username or an
      e-mail address. */
  lemma ProfileKeepsAccountsUnique(users: seq<User>, me: nat, rawName: string, rawEmail: string)
    requires 1 <= me <= |users|
    requires UniqueUsernames(users) && UniqueEmails(users)
    ensures UniqueUsernames(UpdateProfile(users, me, rawName, rawEmail).users)
    ensures UniqueEmails(UpdateProfile(users, me, rawName, rawEmail).users)
  {
    var p := UpdateProfile(users, me, rawName, rawEmail);
    if p.outcome == ProfileUpdated {
      forall i, j | 0 <= i < j < |users|
        ensures p.users[i].username != p.users[j].username && p.users[i].email != p.users[j].email
      {
        if i == me - 1 {
          assert !UsernameHeldByOther(users, me, p.users[i].username);
          assert users[j].username != p.users[i].username;
        } else if j == me - 1 {
          assert users[i].username != p.users[j].username;
        }
      }
    }
  }

  /** The stored e-mail is already lower-case and stripped. */
  lemma StoredEmailIsNormalised(users: seq<User>, me: nat, rawName: string, rawEmail: string)
    requires 1 <= me <= |users|
    requires UpdateProfile(users, me, rawName, rawEmail).outcome == ProfileUpdated
    ensures var e := UpdateProfile(users, me, rawName, rawEmail).users[me - 1].email;
      Lower(e) == e && |e| == |Strip(rawEmail)|
  {
    var e := UpdateProfile(users, me, rawName, rawEmail).users[me - 1].email;
    assert forall k :: 0 <= k < |e| ==> LowerChar(e[k]) == e[k];
  }
}

=== FILE: records.dfy ===
/** Persistent record shapes of the application (the `User` and `Analysis`
    tables). Persistence itself is modelled as plain sequences of these
    records; a user's id is its position in the user sequence plus one.
    This encoding holds because the database numbers appended rows 1, 2,
    3, ... and account deletion is not modelled. */
module Records {
  import opened Common

  /** A user account. `credential` stands for the password hash: the model
      treats hashing as opaque and compares the submitted password with it
      through `PasswordMatches`. `code`/`expiry` are the one pair of fields
      shared by e-mail verification and password reset. */
  datatype User = User(
    username: string,
    email: string,
    credential: string,
    verified: bool,
    code: Option<string>,
    expiry: Option<int>)

  /** `check_password`: the opaque hash comparison. */
  predicate PasswordMatches(u: User, password: string)
  {
    u.credential == password
  }

  /** The `unique=True` constraints of the username and e-mail columns. */
  predicate UniqueUsernames(users: seq<User>)
  {
    forall i, j :: 0 <= i < j < |users| ==> users[i].username != users[j].username
  }

  predicate UniqueEmails(users: seq<User>)
  {
    forall i, j :: 0 <= i < j < |users| ==> users[i].email != users[j].email
  }

  /** An analysis row. Times are seconds since the epoch (UTC). */
  datatype Analysis = Analysis(
    id: nat,
    user: nat,
    kind: string,
    total: int,
    anomalies: Option<int>,
    accuracy: Option<real>,
    created: int)

  /** Number of seconds in a day, and the calendar day of a timestamp
      (`strftime('%Y-%m-%d')`, days counted from the epoch). */
  const SecondsPerDay: int := 86400

  function DayOf(t: int): int
  {
    t / SecondsPerDay
  }

  /** `User.query.get(id)`. */
  function UserById(users: seq<User>, id: int): (r: Option<User>)
    ensures r.Some? <==> 1 <= id <= |users|
    ensures r.Some? ==> r.value == users[id - 1]
  {
    if 1 <= id <= |users| then Some(users[id - 1]) else None
  }

  /** `filter_by(field=value).first()`: the id of the first user the
      predicate accepts. */
  function FirstUserWith(users: seq<User>, p: User -> bool): (r: Option<nat>)
    ensures r.Some? ==> 1 <= r.value <= |users| && p(users[r.value - 1])
    ensures r.Some? ==> forall k :: 0 <= k < r.value - 1 ==> !p(users[k])
    ensures r.None? <==> forall k :: 0 <= k < |users| ==> !p(users[k])
  {
    if |users| == 0 then None
    else if p(users[0]) then Some(1)
    else match FirstUserWith(users[1..], p)
      case None => None
      case Some(id) => Some(id + 1)
  }
}

=== FILE: testnet.dfy ===
/** The testnet simulation of `binance_routes/routes.py`: the generated
    transactions and their statistics, the fixed demo list, and the history
    endpoint's statistics and deletion. The route never calls the analyzer:
    its anomalies are the generated labels. Amounts are kept in units of
    0.0001, prices and scores in hundredths; account `k` is `User{k}`. */
module Testnet {
  import opened Common
  import opened Records

  /** `user_names`: User1 .. User20. */
  const AccountCount: nat := 20

  function UserNames(): (names: seq<nat>)
    ensures |names| == AccountCount
    ensures forall i :: 0 <= i < AccountCount ==> names[i] == i + 1
  {
    seq(AccountCount, i requires 0 <= i < AccountCount => i + 1)
  }

  /** `[u for u in names if u != x]`. */
  function Without(names: seq<nat>, x: nat): (r: seq<nat>)
    ensures forall y :: y in r <==> y in names && y != x
    ensures |r| <= |names|
  {
    if |names| == 0 then []
    else (if names[0] != x then [names[0]] else []) + Without(names[1..], x)
  }

  /** Removing a name that occurs exactly once shortens the list by one. */
  lemma {:induction false} WithoutDistinctLength(names: seq<nat>, x: nat)
    requires Distinct(names) && x in names
    ensures |Without(names, x)| == |names| - 1
  {
    if names[0] == x {
      assert x !in names[1..];
      WithoutAbsentLength(names[1..], x);
    } else {
      assert x in names[1..];
      WithoutDistinctLength(names[1..], x);
    }
  }

  lemma {:induction false} WithoutAbsentLength(names: seq<nat>, x: nat)
    requires x !in names
    ensures Without(names, x) == names
  {
    if |names| > 0 {
      assert x !in names[1..];
      WithoutAbsentLength(names[1..], x);
    }
  }

  /** The recipients a sender may choose from: the other 19 accounts. */
  function Others(from: nat): (r: seq<nat>)
    requires 1 <= from <= AccountCount
    ensures |r| == AccountCount - 1
    ensures forall y :: y in r <==> 1 <= y <= AccountCount && y != from
  {
    var names := UserNames();
    assert forall y :: y in names <==> 1 <= y <= AccountCount by {
      forall y | 1 <= y <= AccountCount ensures y in names {
        assert names[y - 1] == y;
      }
    }
    WithoutDistinctLength(names, from);
    Without(names, from)
  }

  /** The random draws behind one transaction: the indices picked by the two
      `random.choice` calls, the uniform draws of amount and price, and the
      draw `random.choices` compares with its cumulative weights. */
  datatype TxDraw = TxDraw(fromPick: nat, toPick: nat, amountU: real, priceU: real, flagU: real)

  predicate ValidDraw(d: TxDraw)
  {
    && d.fromPick < AccountCount && d.toPick < AccountCount - 1
    && 0.0 <= d.amountU <= 1.0 && 0.0 <= d.priceU <= 1.0 && 0.0 <= d.flagU < 1.0
  }

  datatype Transaction = Transaction(from: nat, to: nat, amount: int, price: int, isAnomaly: Bit)

  /** Bounds of the generated fields, in 0.0001 (amount) and hundredths (price). */
  const MinAmount: int := 100
  const MaxAmount: int := 100000
  const MinPrice: int := 3000000
  const MaxPrice: int := 7000000

  /** Weight of the anomaly label: `choices([0, 1], weights=[0.9, 0.1])`
      yields 1 exactly when its draw reaches the first cumulative weight. */
  const NormalWeight: real := 0.9

  predicate WellFormed(tx: Transaction)
  {
    && 1 <= tx.from <= AccountCount && 1 <= tx.to <= AccountCount && tx.from != tx.to
    && MinAmount <= tx.amount <= MaxAmount && MinPrice <= tx.price <= MaxPrice
  }

  /** One iteration of the generation loop. */
  function Generate(d: TxDraw): (tx: Transaction)
    requires ValidDraw(d)
    ensures WellFormed(tx)
    ensures tx.from == d.fromPick + 1
    ensures tx.isAnomaly == 1 <==> d.flagU >= NormalWeight
  {
    var from := UserNames()[d.fromPick];
    var others := Others(from);
    assert others[d.toPick] in others;
    Transaction(from, others[d.toPick],
                RoundedUniform(MinAmount, MaxAmount, d.amountU),
                RoundedUniform(MinPrice, MaxPrice, d.priceU),
                if d.flagU < NormalWeight then 0 else 1)
  }

  function Flags(txs: seq<Transaction>): (f: seq<Bit>)
    ensures |f| == |txs|
    ensures forall i :: 0 <= i < |txs| ==> f[i] == txs[i].isAnomaly
  {
    seq(|txs|, i requires 0 <= i < |txs| => txs[i].isAnomaly)
  }

  /** The response data of `simulate_testnet` and the analysis it stores.
      `accuracy` and `time` are in hundredths. */
  datatype Simulation = Simulation(
    transactions: seq<Transaction>,
    total: int,
    anomalies: int,
    accuracy: int,
    time: int,
    normal: int,
    anomalous: int,
    stored: Analysis)

  const MinAccuracy: int := 82
  const MaxAccuracy: int := 95
  const MinTime: int := 150
  const MaxTime: int := 450

  /** The generation loop: one transaction per draw. */
  function GenerateAll(draws: seq<TxDraw>): (txs: seq<Transaction>)
    requires forall i :: 0 <= i < |draws| ==> ValidDraw(draws[i])
    ensures |txs| == |draws|
    ensures forall i :: 0 <= i < |txs| ==> WellFormed(txs[i])
    ensures forall i :: 0 <= i < |txs| ==> (txs[i].isAnomaly == 1 <==> draws[i].flagU >= NormalWeight)
  {
    seq(|draws|, i requires 0 <= i < |draws| => Generate(draws[i]))
  }

  /** `sum(1 for t in real_transactions if t['is_anomaly'])`. */
  method CountAnomalies(txs: seq<Transaction>) returns (count: nat)
    ensures count == Ones(Flags(txs))
    ensures count <= |txs|
  {
    count := 0;
    var i := 0;
    while i < |txs|
      invariant 0 <= i <= |txs|
      invariant count == Ones(Flags(txs[..i]))
    {
      assert Flags(txs[..i + 1])[..i] == Flags(txs[..i]);
      if txs[i].isAnomaly == 1 {
        count := count + 1;
      }
      i := i + 1;
    }
    assert txs[..|txs|] == txs;
  }

  /** `simulate_testnet`: `n` is `num_transactions` (`range(n)` is empty for
      n <= 0), `draws` the per-transaction draws, `accuracyU`/`timeU` the
      draws behind the accuracy and the analysis time. */
  method SimulateTestnet(user: nat, nextId: nat, now: int, n: int, draws: seq<TxDraw>,
                         accuracyU: real, timeU: real) returns (sim: Simulation)
    requires |draws| == Max(n, 0)
    requires forall i :: 0 <= i < |draws| ==> ValidDraw(draws[i])
    requires 0.0 <= accuracyU <= 1.0 && 0.0 <= timeU <= 1.0
    ensures sim.total == |sim.transactions| == Max(n, 0)
    ensures forall i :: 0 <= i < |sim.transactions| ==> WellFormed(sim.transactions[i])
    ensures forall i :: 0 <= i < |sim.transactions| ==>
      (sim.transactions[i].isAnomaly == 1 <==> draws[i].flagU >= NormalWeight)
    // the anomalies are the generated labels
    ensures sim.anomalies == Ones(Flags(sim.transactions))
    ensures 0 <= sim.anomalies <= sim.total
    ensures sim.anomalous == sim.anomalies && sim.normal + sim.anomalous == sim.total
    ensures MinAccuracy <= sim.accuracy <= MaxAccuracy && MinTime <= sim.time <= MaxTime
    // the stored row carries the figures of the response
    ensures sim.stored == Analysis(nextId, user, "testnet", sim.total, Some(sim.anomalies),
                                   Some(sim.accuracy as real / 100.0), now)
  {
    var txs := GenerateAll(draws);
    var anomalies := CountAnomalies(txs);
    var accuracy := RoundedUniform(MinAccuracy, MaxAccuracy, accuracyU);
    var time := RoundedUniform(MinTime, MaxTime, timeU);
    var stored := Analysis(nextId, user, "testnet", |txs|, Some(anomalies), Some(accuracy as real / 100.0), now);
    sim := Simulation(txs, |txs|, anomalies, accuracy, time, |txs| - anomalies, anomalies, stored);
  }

  // ---------------------------------------------------------------------
  // Demo list

  /** A demo entry; `history` is the sender's recent amounts. */
  datatype DemoTx = DemoTx(from: nat, to: nat, amount: int, price: int, isAnomaly: Bit,
                           decision: string, history: seq<int>)

  /** Draws of one demo entry: the two account picks, amount and price
      draws, and the three history draws. */
  datatype DemoDraw = DemoDraw(fromPick: nat, toPick: nat, amountU: real, priceU: real, historyU: seq<real>)

  predicate ValidDemoDraw(d: DemoDraw)
  {
    && d.fromPick < AccountCount && d.toPick < AccountCount - 1
    && 0.0 <= d.amountU <= 1.0 && 0.0 <= d.priceU <= 1.0
    && |d.historyU| == 3 && forall k :: 0 <= k < 3 ==> 0.0 <= d.historyU[k] <= 1.0
  }

  /** Demo amount bounds, in 0.0001: normal entries draw from [0.1, 1.5],
      the history of an anomalous one from [0.1, 0.5] and its spike from
      [5.0, 10.0]. */
  const DemoLow: int := 1000
  const DemoHigh: int := 15000
  const QuietHigh: int := 5000
  const SpikeLow: int := 50000
  const SpikeHigh: int := 100000

  function NormalDemo(d: DemoDraw): (tx: DemoTx)
    requires ValidDemoDraw(d)
    ensures tx.isAnomaly == 0 && |tx.history| == 3
    ensures DemoLow <= tx.amount <= DemoHigh
    ensures forall k :: 0 <= k < 3 ==> DemoLow <= tx.history[k] <= DemoHigh
  {
    var from := UserNames()[d.fromPick];
    DemoTx(from, Others(from)[d.toPick], RoundedUniform(DemoLow, DemoHigh, d.amountU),
           RoundedUniform(MinPrice, MaxPrice, d.priceU), 0, "Normal",
           seq(3, k requires 0 <= k < 3 => RoundedUniform(DemoLow, DemoHigh, d.historyU[k])))
  }

  function SpikeDemo(d: DemoDraw): (tx: DemoTx)
    requires ValidDemoDraw(d)
    ensures tx.isAnomaly == 1 && |tx.history| == 4 && tx.history[3] == tx.amount
    ensures SpikeLow <= tx.amount <= SpikeHigh
    ensures forall k :: 0 <= k < 3 ==> DemoLow <= tx.history[k] <= QuietHigh
  {
    var from := UserNames()[d.fromPick];
    var history := seq(3, k requires 0 <= k < 3 => RoundedUniform(DemoLow, QuietHigh, d.historyU[k]));
    var amount := RoundedUniform(SpikeLow, SpikeHigh, d.amountU);
    DemoTx(from, Others(from)[d.toPick], amount, RoundedUniform(MinPrice, MaxPrice, d.priceU), 1,
           "Anomaly", history + [amount])
  }

  /** `perm` is an ordering of 0 .. n-1, as `random.shuffle` produces. */
  predicate IsPermutation(perm: seq<nat>, n: nat)
  {
    |perm| == n && Distinct(perm) && forall i :: 0 <= i < n ==> perm[i] < n
  }

  /** What every demo entry shows: a normal entry with a three-value
      history, or a spike that exceeds every earlier value of its history. */
  predicate DemoShape(tx: DemoTx)
  {
    && (tx.isAnomaly == 0 ==> |tx.history| == 3 && tx.decision == "Normal")
    && (tx.isAnomaly == 1 ==>
          |tx.history| == 4 && tx.amount == tx.history[3] && tx.decision == "Anomaly" &&
          tx.history[0] < tx.amount && tx.history[1] < tx.amount && tx.history[2] < tx.amount)
  }

  /** Entry `k` before the shuffle: entries 0 and 1 are normal, 2 and 3
      are spikes. */
  function DemoSlot(draws: seq<DemoDraw>, k: nat): (tx: DemoTx)
    requires |draws| == 4 && forall i :: 0 <= i < 4 ==> ValidDemoDraw(draws[i])
    requires k < 4
    ensures DemoShape(tx)
    ensures tx.isAnomaly == 1 <==> k >= 2
  {
    if k < 2 then NormalDemo(draws[k]) else SpikeDemo(draws[k])
  }

  /** The demo list: two normal entries, two spikes, shuffled by `perm`. */
  function Demo(draws: seq<DemoDraw>, perm: seq<nat>): (demo: seq<DemoTx>)
    requires |draws| == 4 && forall i :: 0 <= i < 4 ==> ValidDemoDraw(draws[i])
    requires IsPermutation(perm, 4)
    ensures |demo| == 4
    ensures forall i :: 0 <= i < 4 ==> DemoShape(demo[i])
    ensures forall i :: 0 <= i < 4 ==> (demo[i].isAnomaly == 1 <==> perm[i] >= 2)
  {
    seq(4, i requires 0 <= i < 4 => DemoSlot(draws, perm[i]))
  }

  /** Among four distinct positions 0..3, exactly two are at least 2. */
  lemma TwoOfFourHigh(a: nat, b: nat, c: nat, d: nat)
    requires a < 4 && b < 4 && c < 4 && d < 4
    requires a != b && a != c && a != d && b != c && b != d && c != d
    ensures (if a >= 2 then 1 else 0) + (if b >= 2 then 1 else 0)
          + (if c >= 2 then 1 else 0) + (if d >= 2 then 1 else 0) == 2
  {
  }

  /** Shuffling keeps exactly two anomalous entries. */
  lemma DemoHasTwoSpikes(draws: seq<DemoDraw>, perm: seq<nat>)
    requires |draws| == 4 && forall i :: 0 <= i < 4 ==> ValidDemoDraw(draws[i])
    requires IsPermutation(perm, 4)
    ensures var demo := Demo(draws, perm);
      Ones([demo[0].isAnomaly, demo[1].isAnomaly, demo[2].isAnomaly, demo[3].isAnomaly]) == 2
  {
    var demo := Demo(draws, perm);
    var f: seq<Bit> := [demo[0].isAnomaly, demo[1].isAnomaly, demo[2].isAnomaly, demo[3].isAnomaly];
    OnesOfFour(f);
    TwoOfFourHigh(perm[0], perm[1], perm[2], perm[3]);
  }

  /** The flag count of four entries, unrolled. */
  lemma OnesOfFour(f: seq<Bit>)
    requires |f| == 4
    ensures Ones(f) == f[0] as int + f[1] as int + f[2] as int + f[3] as int
  {
    assert f[..1][..0] == [] && f[..2][..1] == f[..1] && f[..3][..2] == f[..2] && f[..|f| - 1] == f[..3];
    assert Ones(f[..1]) == f[0] as int;
    assert Ones(f[..2]) == f[0] as int + f[1] as int;
    assert Ones(f[..3]) == f[0] as int + f[1] as int + f[2] as int;
  }

  // ---------------------------------------------------------------------
  // History

  predicate IsTestnetOf(a: Analysis, user: nat)
  {
    a.user == user && a.kind == "testnet"
  }

  /** `filter_by(user_id=user, analysis_type='testnet')`, in table order. */
  function TestnetRuns(analyses: seq<Analysis>, user: nat): (r: seq<Analysis>)
    ensures forall a :: a in r <==> a in analyses && IsTestnetOf(a, user)
    ensures |r| <= |analyses|
  {
    if |analyses| == 0 then []
    else (if IsTestnetOf(analyses[0], user) then [analyses[0]] else []) + TestnetRuns(analyses[1..], user)
  }

  /** `a.anomalies_detected or 0` and `a.accuracy_score or 0.0`. */
  function AnomaliesOrZero(a: Analysis): int
  {
    if a.anomalies.Some? then a.anomalies.value else 0
  }

  function AccuracyOrZero(a: Analysis): real
  {
    if a.accuracy.Some? then a.accuracy.value else 0.0
  }

  function TotalAnomalies(s: seq<Analysis>): int
  {
    if |s| == 0 then 0 else AnomaliesOrZero(s[0]) + TotalAnomalies(s[1..])
  }

  function TotalAccuracy(s: seq<Analysis>): real
  {
    if |s| == 0 then 0.0 else AccuracyOrZero(s[0]) + TotalAccuracy(s[1..])
  }

  predicate NewestFirst(s: seq<Analysis>)
  {
    forall i, j :: 0 <= i < j < |s| ==> s[i].created >= s[j].created
  }

  /** Places `a` in front of the first run that is not newer. */
  function InsertNewestFirst(a: Analysis, s: seq<Analysis>): (r: seq<Analysis>)
    requires NewestFirst(s)
    ensures NewestFirst(r)
    ensures multiset(r) == multiset(s) + multiset{a}
    ensures TotalAnomalies(r) == AnomaliesOrZero(a) + TotalAnomalies(s)
    ensures TotalAccuracy(r) == AccuracyOrZero(a) + TotalAccuracy(s)
    ensures |r| == |s| + 1 && (r[0] == a || (|s| > 0 && r[0] == s[0]))
  {
    if |s| == 0 || a.created >= s[0].created then [a] + s
    else
      var rest := InsertNewestFirst(a, s[1..]);
      assert s == [s[0]] + s[1..];
      [s[0]] + rest
  }

  /** `order_by(Analysis.created_at.desc())`. */
  function SortNewestFirst(s: seq<Analysis>): (r: seq<Analysis>)
    ensures NewestFirst(r)
    ensures multiset(r) == multiset(s) && |r| == |s|
    ensures TotalAnomalies(r) == TotalAnomalies(s) && TotalAccuracy(r) == TotalAccuracy(s)
  {
    if |s| == 0 then []
    else
      assert s == [s[0]] + s[1..];
      InsertNewestFirst(s[0], SortNewestFirst(s[1..]))
  }

  /** The history response: the runs newest first (each rendered as one
      entry), and the run count, anomaly total and mean accuracy. */
  datatype History = History(newestFirst: seq<Analysis>, runs: nat, anomalies: int, avgAccuracy: real)

  /** `testnet_history` (GET). */
  function TestnetHistory(analyses: seq<Analysis>, user: nat): (h: History)
    ensures h.runs == |TestnetRuns(analyses, user)|
    ensures h.anomalies == TotalAnomalies(TestnetRuns(analyses, user))
    ensures h.runs > 0 ==> h.avgAccuracy == TotalAccuracy(TestnetRuns(analyses, user)) / h.runs as real
    ensures h.runs == 0 ==> h.avgAccuracy == 0.0 && h.anomalies == 0 && h.newestFirst == []
    // every run once, newest first
    ensures multiset(h.newestFirst) == multiset(TestnetRuns(analyses, user))
    ensures NewestFirst(h.newestFirst)
  {
    var runs := TestnetRuns(analyses, user);
    var sorted := SortNewestFirst(runs);
    var total := TotalAccuracy(sorted);
    var n := |sorted|;
    if n > 0 then
      History(sorted, n, TotalAnomalies(sorted), total / n as real)
    else
      History(sorted, 0, TotalAnomalies(sorted), 0.0)
  }

  /** `testnet_history` (DELETE): the user's testnet runs are removed. */
  function DeleteTestnet(analyses: seq<Analysis>, user: nat): (r: seq<Analysis>)
    ensures forall a :: a in r <==> a in analyses && !IsTestnetOf(a, user)
    ensures |r| == |analyses| - |TestnetRuns(analyses, user)|
  {
    if |analyses| == 0 then []
    else (if IsTestnetOf(analyses[0], user) then [] else [analyses[0]]) + DeleteTestnet(analyses[1..], user)
  }

  /** Deleting removes only this user's testnet runs: another user's
      testnet runs are exactly as before. */
  lemma {:induction false} DeleteKeepsOthersRuns(analyses: seq<Analysis>, user: nat, other: nat)
    requires other != user
    ensures TestnetRuns(DeleteTestnet(analyses, user), other) == TestnetRuns(analyses, other)
  {
    if |analyses| > 0 {
      DeleteKeepsOthersRuns(analyses[1..], user, other);
      var d := DeleteTestnet(analyses, user);
      if IsTestnetOf(analyses[0], user) {
        assert d == DeleteTestnet(analyses[1..], user);
      } else {
        assert d[0] == analyses[0] && d[1..] == DeleteTestnet(analyses[1..], user);
      }
    }
  }

  /** After the delete the user's history is empty. */
  lemma DeleteEmptiesHistory(analyses: seq<Analysis>, user: nat)
    ensures TestnetHistory(DeleteTestnet(analyses, user), user) == History([], 0, 0, 0.0)
  {
    DeleteLeavesNoRuns(analyses, user);
    assert SortNewestFirst([]) == [];
  }

  lemma {:induction false} DeleteLeavesNoRuns(analyses: seq<Analysis>, user: nat)
    ensures TestnetRuns(DeleteTestnet(analyses, user), user) == []
  {
    if |analyses| > 0 {
      DeleteLeavesNoRuns(analyses[1..], user);
      var d := DeleteTestnet(analyses, user);
      if IsTestnetOf(analyses[0], user) {
        assert d == DeleteTestnet(analyses[1..], user);
      } else {
        assert d[0] == analyses[0] && d[1..] == DeleteTestnet(analyses[1..], user);
      }
    }
  }

  /** A stored simulation counts as one more run with its anomalies. */
  lemma {:induction false} StoredRunCounts(analyses: seq<Analysis>, user: nat, a: Analysis)
    requires IsTestnetOf(a, user)
    ensures TestnetRuns(analyses + [a], user) == TestnetRuns(analyses, user) + [a]
    ensures TotalAnomalies(TestnetRuns(analyses + [a], user))
         == TotalAnomalies(TestnetRuns(analyses, user)) + AnomaliesOrZero(a)
  {
    if |analyses| == 0 {
      assert [] + [a] == [a];
      assert [a][1..] == [];
    } else {
      assert (analyses + [a])[1..] == analyses[1..] + [a];
      StoredRunCounts(analyses[1..], user, a);
    }
    TotalAnomaliesAppend(TestnetRuns(analyses, user), a);
  }

  lemma {:induction false} TotalAnomaliesAppend(s: seq<Analysis>, a: Analysis)
    ensures TotalAnomalies(s + [a]) == TotalAnomalies(s) + AnomaliesOrZero(a)
  {
    if |s| == 0 {
      assert [] + [a] == [a];
      assert [a][1..] == [];
    } else {
      assert (s + [a])[1..] == s[1..] + [a];
      TotalAnomaliesAppend(s[1..], a);
    }
  }
}

=== FILE: training.dfy ===
/** Lazy training of the analyzer's models (`MLAnalyzer.load_models`,
    `train_dummy_models` and the `hasattr(self.models['svm'], 'classes_')`
    guard of the three analyze methods). Only whether each estimator holds a
    fitted state is modelled; the fitted parameters are not. */
module Training {
  import opened Common

  /** Whether each classifier slot and the shared scaler hold a fitted state. */
  datatype Registry = Registry(fitted: Slots<bool>, scalerFitted: bool)

  /** `load_models`: a slot (or the scaler) starts fitted exactly when its
      pickled artifact exists; otherwise a fresh unfitted estimator is built. */
  function LoadModels(artifacts: Slots<bool>, scalerArtifact: bool): Registry
  {
    Registry(artifacts, scalerArtifact)
  }

  /** The training trigger inspects the svm slot only. */
  predicate NeedsTraining(r: Registry)
  {
    !r.fitted.svm
  }

  /** One classifier's fit: success leaves it fitted; a failure is logged and
      swallowed, leaving the estimator in its prior state. */
  function FitSlot(prior: bool, ok: bool): bool
  {
    prior || ok
  }

  /** Every slot fitted before is still fitted. */
  predicate Extends(before: Registry, after: Registry)
  {
    && (before.fitted.svm ==> after.fitted.svm)
    && (before.fitted.forest ==> after.fitted.forest)
    && (before.fitted.ada ==> after.fitted.ada)
    && (before.fitted.xgb ==> after.fitted.xgb)
    && (before.scalerFitted ==> after.scalerFitted)
  }

  /** `train_dummy_models` on a feature matrix with `rows` rows; `finite`
      tells whether every value of the matrix is finite (pandas reads `inf`
      or `1e999` as an infinity, which the scaler's input check rejects,
      while NaN passes it). `fitOk` tells which classifier fits succeed on
      the synthetic labels (an opaque library outcome). Fitting the scaler
      on a matrix with no rows or with an infinity raises, and the exception
      propagates before any classifier is touched. */
  function TrainDummyModels(r: Registry, rows: nat, finite: bool, fitOk: Slots<bool>): (t: Result<Registry, Fault>)
    ensures t.Failure? <==> rows == 0 || !finite
    ensures rows == 0 ==> t == Failure(ScalerFitRaised)
    // the scaler's fitted check comes before its input check
    ensures rows > 0 && !finite && (NeedsTraining(r) || r.scalerFitted) ==> t == Failure(NonFiniteInput)
    ensures t.Success? ==> t.value.scalerFitted && Extends(r, t.value)
    // each slot is fitted afterwards iff it was before or its fit succeeded
    ensures t.Success? ==> (t.value.fitted.svm <==> r.fitted.svm || fitOk.svm)
    ensures t.Success? ==> (t.value.fitted.forest <==> r.fitted.forest || fitOk.forest)
    ensures t.Success? ==> (t.value.fitted.ada <==> r.fitted.ada || fitOk.ada)
    ensures t.Success? ==> (t.value.fitted.xgb <==> r.fitted.xgb || fitOk.xgb)
    ensures t.Success? && fitOk.forest && fitOk.ada && fitOk.xgb && fitOk.svm ==>
      t.value == Registry(Slots(true, true, true, true), true)
  {
    if rows == 0 then Failure(ScalerFitRaised)
    else if !finite then Failure(NonFiniteInput)
    else
      Success(Registry(
        Slots(FitSlot(r.fitted.svm, fitOk.svm), FitSlot(r.fitted.forest, fitOk.forest),
              FitSlot(r.fitted.ada, fitOk.ada), FitSlot(r.fitted.xgb, fitOk.xgb)),
        true))
  }

  /** The prelude shared by `analyze_csv`, `analyze_live_data` and
      `analyze_simulated_data`: train when the svm slot is unfitted, then
      `scaler.transform`, which raises on an unfitted scaler, on a matrix
      with no rows and on a matrix holding an infinity. */
  function PrepareModels(r: Registry, rows: nat, finite: bool, fitOk: Slots<bool>): (t: Result<Registry, Fault>)
    // an empty input, or one with an infinite value, never reaches prediction
    ensures rows == 0 || !finite ==> t.Failure?
    // the scaler's fitted check comes before its input check
    ensures rows > 0 && !finite && (NeedsTraining(r) || r.scalerFitted) ==> t == Failure(NonFiniteInput)
    // an untrained registry is trained on any non-empty, finite input
    ensures NeedsTraining(r) && rows > 0 && finite ==> t.Success? && t.value.scalerFitted && Extends(r, t.value)
    ensures NeedsTraining(r) && rows > 0 && finite ==> t == TrainDummyModels(r, rows, finite, fitOk)
    // a trained registry is reused as is
    ensures !NeedsTraining(r) ==> (t.Success? <==> rows > 0 && finite && r.scalerFitted)
    ensures !NeedsTraining(r) && t.Success? ==> t.value == r
  {
    var trained := if NeedsTraining(r) then TrainDummyModels(r, rows, finite, fitOk) else Success(r);
    match trained
    case Failure(e) => Failure(e)
    case Success(r') =>
      if !r'.scalerFitted then Failure(ScalerNotFitted)
      else if rows == 0 then Failure(TransformRaised)
      else if !finite then Failure(NonFiniteInput)
      else Success(r')
  }

  /** Once the svm slot is fitted, training never runs again: the outcome no
      longer depends on how classifier fits would have gone. */
  lemma TrainedNeverRetrains(r: Registry, rows: nat, finite: bool, fitOk: Slots<bool>, fitOk': Slots<bool>)
    requires !NeedsTraining(r)
    ensures PrepareModels(r, rows, finite, fitOk) == PrepareModels(r, rows, finite, fitOk')
  {
  }

  /** A swallowed svm fit failure leaves the trigger armed, so the next call
      retrains every slot and refits the scaler. */
  lemma SvmFailureRetrainsNextCall(r: Registry, rows: nat, fitOk: Slots<bool>)
    requires NeedsTraining(r) && rows > 0 && !fitOk.svm
    ensures PrepareModels(r, rows, true, fitOk).Success?
    ensures NeedsTraining(PrepareModels(r, rows, true, fitOk).value)
  {
  }

  /** A successful first training (svm fit succeeded) is a fixpoint: every
      later non-empty call reuses the same registry. */
  lemma TrainingIsOneWay(r: Registry, rows: nat, fitOk: Slots<bool>, rows': nat, fitOk': Slots<bool>)
    requires NeedsTraining(r) && rows > 0 && fitOk.svm && rows' > 0
    ensures PrepareModels(r, rows, true, fitOk).Success?
    ensures var r1 := PrepareModels(r, rows, true, fitOk).value;
      !NeedsTraining(r1) && PrepareModels(r1, rows', true, fitOk') == Success(r1)
  {
  }
}

=== FILE: upload.dfy ===
/** Client side of the upload page (`static/js/upload.js`): the checks a
    chosen or dropped file must pass before the submit button is enabled,
    and the guard that keeps an empty form from being sent. The page is
    reduced to the file input, the file shown in the upload area, the submit
    button's `disabled` flag, the alerts raised and the files posted. */
module Upload {
  import opened Common
  import Helpers

  /** A browser `File`: its name and its size in bytes. */
  datatype File = File(name: string, size: int)

  /** 10 MiB; larger files are refused. */
  const MaxSize: int := 10 * 1024 * 1024

  datatype Alert = NotCsv | TooLarge | NoFile

  datatype Page = Page(input: Option<File>, shown: Option<File>, submitDisabled: bool,
                       loading: bool, alerts: seq<Alert>, sent: seq<File>)

  predicate EndsWith(s: string, suffix: string)
  {
    |suffix| <= |s| && s[|s| - |suffix|..] == suffix
  }

  /** `file.name.toLowerCase().endsWith('.csv')`. */
  predicate IsCsvName(name: string)
  {
    EndsWith(Lower(name), ".csv")
  }

  /** A file passes both checks of `handleFileSelect`. */
  predicate Accepts(f: File)
  {
    IsCsvName(f.name) && f.size <= MaxSize
  }

  /** `handleFileSelect`: only the first file counts; the type is checked
      before the size, and only a file passing both is shown and enables
      the submit button. */
  function HandleFileSelect(p: Page, files: seq<File>): (q: Page)
    ensures q.input == p.input && q.sent == p.sent && q.loading == p.loading
    ensures |files| == 0 ==> q == p
    // a rejected file changes nothing but the alerts
    ensures |files| > 0 && !Accepts(files[0]) ==>
      q == p.(alerts := q.alerts) && |q.alerts| == |p.alerts| + 1 && q.alerts[..|p.alerts|] == p.alerts
    // the type message wins over the size message
    ensures |files| > 0 && !IsCsvName(files[0].name) ==> q.alerts[|p.alerts|] == NotCsv
    ensures |files| > 0 && IsCsvName(files[0].name) && files[0].size > MaxSize ==> q.alerts[|p.alerts|] == TooLarge
    // the button is enabled only by an accepted file
    ensures !q.submitDisabled ==> !p.submitDisabled || (|files| > 0 && Accepts(files[0]))
    ensures |files| > 0 && Accepts(files[0]) ==> !q.submitDisabled && q.shown == Some(files[0]) && q.alerts == p.alerts
  {
    if |files| == 0 then p
    else
      var f := files[0];
      if !IsCsvName(f.name) then p.(alerts := p.alerts + [NotCsv])
      else if f.size > MaxSize then p.(alerts := p.alerts + [TooLarge])
      else p.(shown := Some(f), submitDisabled := false)
  }

  /** The file input's `change` event: the input now holds the chosen file. */
  function Pick(p: Page, files: seq<File>): (q: Page)
    ensures q.input == (if |files| > 0 then Some(files[0]) else None)
  {
    HandleFileSelect(p.(input := if |files| > 0 then Some(files[0]) else None), files)
  }

  /** `handleDrop` as written: the dropped files are checked, but the file
      input is left as it was. */
  function DropAsWritten(p: Page, files: seq<File>): (q: Page)
    ensures q.input == p.input
    ensures |files| > 0 && Accepts(files[0]) ==> !q.submitDisabled && q.shown == Some(files[0])
  {
    if |files| > 0 then HandleFileSelect(p, files) else p
  }

  /** A drop that also puts the dropped file into the file input. */
  function Drop(p: Page, files: seq<File>): (q: Page)
    ensures |files| > 0 ==> q.input == Some(files[0])
    ensures |files| == 0 ==> q == p
  {
    if |files| > 0 then HandleFileSelect(p.(input := Some(files[0])), files) else p
  }

  /** `handleFormSubmit`: with no file in the input only an alert is raised;
      otherwise the input's file is posted and the loading state shown. */
  function HandleFormSubmit(p: Page): (q: Page)
    ensures p.input.None? ==> q.sent == p.sent && q.alerts == p.alerts + [NoFile]
    ensures p.input.Some? ==> q.sent == p.sent + [p.input.value] && q.loading && q.submitDisabled
    ensures p.input.Some? ==> q.alerts == p.alerts
  {
    if p.input.None? then p.(alerts := p.alerts + [NoFile])
    else p.(loading := true, submitDisabled := true, sent := p.sent + [p.input.value])
  }

  /** Exactly 10 MiB is accepted, one byte more is not. */
  lemma SizeLimitIsInclusive(name: string)
    requires IsCsvName(name)
    ensures Accepts(File(name, MaxSize)) && !Accepts(File(name, MaxSize + 1))
  {
  }

  /** An oversized non-CSV file gets only the type message. */
  lemma TypeCheckComesFirst(p: Page, f: File)
    requires !IsCsvName(f.name) && f.size > MaxSize
    ensures HandleFileSelect(p, [f]).alerts == p.alerts + [NotCsv]
  {
  }

  /** The browser's test and the server's `allowed_file` with {"csv"} accept
      the same names. */
  lemma ClientAgreesWithServer(name: string)
    ensures IsCsvName(name) <==> Helpers.AllowedFile(name, Helpers.AllowedExtensions)
  {
    if IsCsvName(name) { CsvNameIsAllowed(name); }
    if Helpers.AllowedFile(name, Helpers.AllowedExtensions) { AllowedIsCsvName(name); }
  }

  lemma CsvNameIsAllowed(name: string)
    requires IsCsvName(name)
    ensures Helpers.AllowedFile(name, Helpers.AllowedExtensions)
  {
    var k := |name| - 4;
    var low := Lower(name);
    assert low[k..] == ".csv";
    assert low[k] == '.' && low[k + 1] == 'c' && low[k + 2] == 's' && low[k + 3] == 'v';
    assert LowerChar(name[k]) == '.';
    var ext := name[k + 1..];
    assert |ext| == 3;
    assert Lower(ext) == "csv" by {
      assert Lower(ext)[0] == low[k + 1];
      assert Lower(ext)[1] == low[k + 2];
      assert Lower(ext)[2] == low[k + 3];
    }
    assert '.' !in ext by {
      assert LowerChar(ext[0]) == 'c' && LowerChar(ext[1]) == 's' && LowerChar(ext[2]) == 'v';
    }
    assert Helpers.ExtensionAt(name, k, Helpers.AllowedExtensions);
  }

  lemma AllowedIsCsvName(name: string)
    requires Helpers.AllowedFile(name, Helpers.AllowedExtensions)
    ensures IsCsvName(name)
  {
    var k :| Helpers.ExtensionAt(name, k, Helpers.AllowedExtensions);
    ExtensionCsvEndsName(name, k);
  }

  /** A '.' at `k` followed by a text that lower-cases to "csv" ends the name. */
  lemma ExtensionCsvEndsName(name: string, k: nat)
    requires k < |name| && name[k] == '.' && Lower(name[k + 1..]) == "csv"
    ensures IsCsvName(name)
  {
    var ext := name[k + 1..];
    var lext := Lower(ext);
    assert |ext| == 3;
    var low := Lower(name);
    var tail := low[|low| - 4..];
    assert |tail| == 4;
    assert tail[0] == LowerChar(name[k]) == '.';
    assert tail[1] == LowerChar(ext[0]) == lext[0] == 'c';
    assert tail[2] == LowerChar(ext[1]) == lext[1] == 's';
    assert tail[3] == LowerChar(ext[2]) == lext[2] == 'v';
    assert tail == ".csv";
  }

  /** Dropping an accepted file into a page whose input is empty shows it as
      ready and enables the button, yet submitting posts nothing and only
      raises the "no file" alert. */
  lemma DroppedFileNeverSent(p: Page, f: File)
    requires p.input.None? && Accepts(f)
    ensures var q := DropAsWritten(p, [f]);
      !q.submitDisabled && q.shown == Some(f) &&
      HandleFormSubmit(q).sent == p.sent && HandleFormSubmit(q).alerts == p.alerts + [NoFile]
  {
  }

  /** With the corrected drop, and with the file picker, an accepted file is
      what the form posts. */
  lemma AcceptedFileIsSent(p: Page, f: File)
    requires Accepts(f)
    ensures HandleFormSubmit(Drop(p, [f])).sent == p.sent + [f]
    ensures HandleFormSubmit(Pick(p, [f])).sent == p.sent + [f]
    ensures !Drop(p, [f]).submitDisabled && !Pick(p, [f]).submitDisabled
  {
  }
}
